=== FILE: README.md ===
# trust_notarie frontend: a Dafny model of its core

This project models the browser side of the trust_notarie document notary.
Owners sign in with a wallet by answering a challenge. The bearer token that
comes back is kept in a cookie, in localStorage and in hook state, and a
request interceptor attaches it to each call. Owners upload a document for a
signer. Signers open an invitation link and sign a message that names the
document. Anyone can check a file by sending its SHA-256 hash to the backend.

Modules, one per file:

- `Base` (base.dfy): `Option`, `Result`, JavaScript truthiness, and how
  template strings render a missing value.
- `Text` (text.dfy): the JavaScript string operations the code relies on.
  These are `split`, `join`, `indexOf`, `startsWith`, `includes`, `replace`
  with a string pattern, and ASCII `toLowerCase`.
- `HexCodec` (hex_codec.dfy): the per-byte `toString(16).padStart(2, '0')`
  rendering, and a decoder it is proved against.
- `Cookies` (cookies.dfy): the browser cookie jar behind `document.cookie`,
  and the `authToken=` reader used by the hook and by its interceptor.
- `AuthSession` (auth_session.dfy): `useAuth`, covering the interceptor, the
  mount effect, login and logout.
- `VerifyPage` (verify_page.dfy): the public verification page.
- `CreatePage` (create_page.dfy): the upload form, its schema and its dropzone.
- `SignPage` (sign_page.dfy): the invitation page.
- `Dashboard` (dashboard.dfy): the owner's document list and search.
- `DocumentDetails` (document_details.dfy): the details page and its download URL.

External calls are function parameters whose answers are values or
rejections. These are the backend endpoints, the wallet's `signMessageAsync`,
`crypto.subtle.digest` and zod's email check. Each handler is modelled as
running to completion, giving the state it settles in, except on the verify
page: there a verification is split into its start and the return of its
`await`s, so that the user's other actions can fall in between.

The details page opens the document from three places (app/documents/page.tsx:71-73,
117-119 and 150-152), all with the same expression, so the model has one URL per
loaded document (`DocumentDetails.View`).

Four behaviours of the code differ from what one might expect, and the model
follows the code:

- **Session lifetime.** A 24-hour session would treat an older token as
  absent. The code expires only the cookie: login also puts the token in
  localStorage with no expiry, and the mount effect adopts it again.
  `AuthSession.LocalStorageOutlivesCookie` proves this revival.
- **Login failures.** Login does not sort its failures into kinds (challenge,
  signature, verification). It rethrows whatever the failing step threw, and
  `AuthSession.Login` returns that error unchanged.
- **Details page without `id`.** The page's effect first runs with the first
  render's values: no token and auth not loading (hooks/useAuth.ts:29-30).
  The token `useAuth`'s own mount effect reads is set in the same pass but
  reaches the page only on the next render. So the first run stops loading at
  once. A token that arrives later, with no `id`, starts no fetch, and the page
  shows "Document not found" rather than a spinner.
  `DocumentDetails.Mounted` models the two runs, and
  `DocumentDetails.MissingIdShowsNotFound` states the outcome.
- **Cookie lifetime.** The cookie's expiry is written with `toUTCString()`,
  which keeps whole seconds. So the cookie lapses up to 999 ms before
  `now + 24 h`, at the start of that second (`Cookies.DayExpiry`), and every
  lemma about the session's 24 hours uses that truncated expiry.

Two lemmas are not tied to one source line but support others.
`HexCodec.HexInjective` is the step `VerifyPage.StaleVerdictAsWritten` uses to
tell two different digests apart on screen. `DocumentDetails.ResolveIsIdempotent`
shows that with an `http` API base the download URL is absolute, so the link
and the viewer open the same address wherever the page is served from; the
fixed point says the `http` test recognises every URL the page builds.

## Model

| member | source | states |
|---|---|---|
| Cookies.ReadAuthToken | hooks/useAuth.ts:11-14 | A token is found exactly when some `"; "`-separated entry of the cookie string starts with `authToken=`; the token never contains `=` |
| Cookies.ReadAuthTokenSource | hooks/useAuth.ts:11-14 | The token comes from the first `authToken=` entry: it is the rest of that entry, or the part of it before a further `=` |
| Cookies.ReadHeader | hooks/useAuth.ts:35-38 | On a well-formed jar the reader returns the live `authToken` cookie's value up to its first `=`, and nothing when no live one exists |
| Cookies.DayExpiry | hooks/useAuth.ts:48-50 | The expiry written 24 hours ahead is a whole second, in the last second before `now + 24 h` or at it |
| Cookies.Write | hooks/useAuth.ts:50 | Assigning `document.cookie` replaces only the cookie of that name: it holds the new cookie if its expiry is in the future and is gone otherwise; a valid cookie keeps the jar well-formed |
| Cookies.Header | hooks/useAuth.ts:35 | Reading `document.cookie` gives the empty string exactly when no cookie is live, and otherwise starts with the first live cookie's `name=value` |
| Cookies.SplitHeader | hooks/useAuth.ts:35-36 | Splitting `document.cookie` on `"; "` gives one `name=value` row per live cookie in jar order, or one empty row |
| Cookies.ReadAfterWrite | hooks/useAuth.ts:79-81 | A token without `=` or `;`, written with a future expiry, reads back unchanged before the expiry and is absent from the expiry on |
| Cookies.ReadAfterDelete | hooks/useAuth.ts:98 | After the cookie is written with an expiry in the past, the reader finds no token at any time |
| AuthSession.Decorate | hooks/useAuth.ts:8-24 | With a truthy cookie token and a headers object, `Authorization` becomes `Bearer <token>` and every other header is unchanged; otherwise the config passes through untouched |
| AuthSession.Init | hooks/useAuth.ts:32-54 | A truthy cookie token wins and the jar is not touched; otherwise a truthy localStorage token is adopted and written as the `authToken` cookie expiring at now + 24 h truncated to the second, with every other cookie unchanged; the hook is authenticated exactly when one of the two stores holds a truthy token |
| AuthSession.InitMigrationSynchronises | hooks/useAuth.ts:43-51 | After a localStorage token is adopted, the cookie reads back as that token until the expiry (24 hours on, truncated to the second) and as no token from then on, and the jar stays well-formed |
| AuthSession.Login | hooks/useAuth.ts:56-95 | With no wallet it throws before any call. Otherwise: challenge, then sign the challenge, then verify (address, message, signature), stopping at the first failure, whose error is the outcome. Success stores the token in cookie, localStorage and state; failure changes only `isLoading` |
| AuthSession.LoginAuthorizesRequests | hooks/useAuth.ts:78-86 | Until the cookie's expiry, 24 hours after a successful login truncated to the second, every request carries `Bearer <token>`, and a reload finds the same token |
| AuthSession.LocalStorageOutlivesCookie | hooks/useAuth.ts:44-51 | From the login cookie's truncated expiry on, the interceptor sends no token, but a reload adopts the localStorage copy and writes it into the cookie again |
| AuthSession.Logout | hooks/useAuth.ts:97-101 | Logout leaves no token in state, localStorage or the cookie jar, and leaves every other cookie as it was |
| AuthSession.LogoutIsDurable | hooks/useAuth.ts:97-110 | After logout the reader finds no token at any time, a reload is unauthenticated, and the interceptor changes no request |
| HexCodec.ByteToHex | app/verify/page.tsx:41 | Every byte renders as exactly two lowercase digits, high nibble first, with a leading `0` below 16 |
| HexCodec.Hex | app/verify/page.tsx:40-41 | The rendering has two characters per byte |
| HexCodec.HexIsLowercaseDigits | app/verify/page.tsx:41 | Every character of the rendering is one of `0-9a-f` |
| HexCodec.HexDigitsAt | app/verify/page.tsx:40-41 | Characters `2i` and `2i+1` are the high and low digit of byte `i` |
| HexCodec.Unhex | app/verify/page.tsx:40-41 | The decoder succeeds exactly on even-length strings of hex digits and yields half as many bytes |
| HexCodec.UnhexOfHex | app/verify/page.tsx:40-41 | Decoding the rendering of any byte array gives the array back |
| HexCodec.HexOfUnhex | app/verify/page.tsx:40-41 | Rendering what was decoded gives the input back, lowercased |
| HexCodec.HexInjective | app/verify/page.tsx:40-41 | Distinct byte arrays never share a rendering |
| VerifyPage.DocumentHash | app/verify/page.tsx:80 | The submitted hash is `0x` followed by lowercase hex digits, two per digest byte |
| VerifyPage.DocumentHashRoundTrip | app/verify/page.tsx:75-80 | Parsing the submitted hash gives the digest back; a SHA-256 digest gives 66 characters |
| VerifyPage.DocumentHashInjective | app/verify/page.tsx:75-80 | Two files get the same submitted hash exactly when their digests are equal |
| VerifyPage.ChooseFile | app/verify/page.tsx:45-64 | An empty file list changes nothing; otherwise the first file replaces the current one and the verdict and digest are cleared |
| VerifyPage.ClearFile | app/verify/page.tsx:138-144 | "Choose Different File" removes the file, the verdict and the digest |
| VerifyPage.BeginVerify | app/verify/page.tsx:67-71 | Starting a verification turns loading on and removes the verdict, keeping the file and the digest on display |
| VerifyPage.SettleAsWritten | app/verify/page.tsx:72-93 | When the `await`s return, loading ends and at most one of a non-empty result and an error is set, whatever file is on display by then. If the file read at the start was hashed, its digest is shown. If hashing rejected, the digest on display stays and the error is "Failed to verify document" |
| VerifyPage.Settle | app/verify/page.tsx:75-93 | The guarded return step: for the file still on display it is the step as written; anything it changes on screen belongs to the file it verified, and a digest it writes is that file's |
| VerifyPage.HandleVerify | app/verify/page.tsx:37-94 | With nothing happening while it waits: without a file nothing happens. A hash is submitted iff there is a file and hashing it succeeds. If hashing rejects, the old digest stays and "Failed to verify document" shows. Otherwise it submits `0x` plus the hex of the file's SHA-256 digest and shows that hex. A result is shown iff the answer is a non-empty list, and it is that list. An empty or missing answer shows "not found"; a rejection shows the server's truthy error or the default. Result and error are never both set |
| VerifyPage.InitialIsCoherent | app/verify/page.tsx:45-94 | The page as first rendered is coherent |
| VerifyPage.RunKeepsCoherent | app/verify/page.tsx:45-94 | With the guarded return step, any interleaving of selects, drops, clears, verifications and returning answers keeps the page coherent: a shown digest is the shown file's, a verdict needs a file, result and error exclude each other, a result is never empty, and the spinner is on exactly while a verification is outstanding |
| VerifyPage.StaleVerdictAsWritten | app/verify/page.tsx:75-86 | As written, selecting A, verifying, and dropping B before the answer returns leaves B on display beside A's digest and A's verdict |
| VerifyPage.GuardedDropsStaleAnswer | app/verify/page.tsx:75-86 | With the guard, the same events leave B on display with no digest, no verdict and no spinner |
| VerifyPage.ChoosingForgetsHistory | app/verify/page.tsx:45-64 | After a file is chosen, the page and the next verification do not depend on what was on display before |
| VerifyPage.ShortTxHash | app/verify/page.tsx:274 | The abbreviation is at most the first 10 characters, then `...`, then at most the last 8, each part taken from the hash |
| VerifyPage.ShortTxHashKeepsEnds | app/verify/page.tsx:274 | For a hash of 18 characters or more, the abbreviation is 21 characters and the hash is its head, a hidden middle, and its tail |
| CreatePage.Validate | app/create/page.tsx:17-22 | Per field, iff: the email is rejected by the email check; a name is shorter than 2; the address is present, non-empty and not `0x` plus 40 hex digits |
| CreatePage.EthAddressIsTwentyBytes | app/create/page.tsx:21 | An accepted address decodes to exactly 20 bytes, whose `0x` rendering is the address lowercased |
| CreatePage.TwentyBytesAreEthAddress | app/create/page.tsx:21 | Every 20-byte value rendered with `0x` passes the address pattern |
| CreatePage.AllowList | app/create/page.tsx:49-56 | The dropzone accepts exactly six MIME types and seven extensions |
| CreatePage.Acceptable | app/create/page.tsx:46-57 | A dropped file passes exactly when its MIME type or extension is on the allow-list |
| CreatePage.DropzoneTake | app/create/page.tsx:46-57 | At most one file is handed on, and it passed the type test; one is handed on exactly when exactly one dropped file is acceptable |
| CreatePage.OnDrop | app/create/page.tsx:40-44 | A single acceptable drop replaces the current file; any other drop keeps it |
| CreatePage.CreateEntries | app/create/page.tsx:64-72 | The body has five entries, or six when a signer address was typed |
| CreatePage.CreateEntriesRoundTrip | app/create/page.tsx:64-72 | The body reads back as the chosen file, the wallet as owner, the signer's details, and the signer address exactly when one was typed |
| CreatePage.HandleSubmit | app/create/page.tsx:59-87 | A request is sent iff the schema passes, a file is chosen and a wallet is connected; it carries that file and wallet; success navigates to `/documents/<id>`, a rejection alerts |
| SignPage.ValidateSign | app/sign/page.tsx:16-20 | Per field, iff: a name is shorter than 2; the email is rejected by the email check |
| SignPage.SchemasAgree | app/sign/page.tsx:16-20 | The signing schema rejects the same fields as the creation schema with an empty signer address |
| SignPage.Mount | app/sign/page.tsx:43-64 | A fetch happens iff the token is truthy. Without a token the error is "No token provided". Otherwise a document is loaded iff the fetch answers with a non-null body, and it is that body; a failure or a `null` body shows the load error instead |
| SignPage.View | app/sign/page.tsx:93-95 | The spinner shows iff loading; otherwise the error card shows iff the error is truthy, with that message; otherwise the success card iff signing succeeded; otherwise the form |
| SignPage.NoTokenNoForm | app/sign/page.tsx:43-50 | Without a token the page shows "No token provided" and never the form |
| SignPage.SignMessage | app/sign/page.tsx:72 | The signed message is the fixed confirmation text followed by the document's file name as interpolated: the name, `undefined` when absent, `null` when null |
| SignPage.NamedFile | app/sign/page.tsx:72 | A message yields a file name exactly when it starts with the confirmation text, and the message is that text plus the name |
| SignPage.SignMessageNamesFile | app/sign/page.tsx:72 | The message names its file, so two documents get the same message exactly when their interpolated file names agree |
| SignPage.OnSign | app/sign/page.tsx:66-91 | A failing schema or no wallet sends nothing and changes nothing. Otherwise the wallet signs iff a document is loaded, and signs the message naming it. The post to `/sign/<token>` happens iff the wallet signed, and carries that message, its signature, the wallet address and the form values. "Signed" iff the post succeeded; every failure shows the same error |
| SignPage.SuccessNamesLoadedDocument | app/sign/page.tsx:66-91 | The page turns to "signed" only after posting a message that names the loaded document's file |
| Dashboard.ParseStatus | app/dashboard/page.tsx:17 | A parsed status is spelled as the string it came from |
| Dashboard.StatusRoundTrip | app/dashboard/page.tsx:17 | Each of the five statuses reads back from its spelling as itself |
| Dashboard.Filter | app/dashboard/page.tsx:55-57 | The result keeps the documents in order; a document is in it exactly when it is in the list and its lowercased name contains the lowercased search |
| Dashboard.Visible | app/dashboard/page.tsx:55-57 | A missing list shows nothing; otherwise the shown documents are the matching ones of the list, in order |
| Dashboard.EmptySearchKeepsAll | app/dashboard/page.tsx:55-57 | An empty search shows every document |
| Dashboard.NarrowingSearch | app/dashboard/page.tsx:55-57 | When the new search contains the old one, filtering the old result equals filtering everything |
| Dashboard.ExtendingSearchShrinks | app/dashboard/page.tsx:55-57 | Typing more characters only removes documents from the result |
| Dashboard.Effect | app/dashboard/page.tsx:31-37 | The list is fetched iff there is a token; loading stops without a fetch iff there is no token and the session is settled and unauthenticated |
| Dashboard.SettledSessionDecides | app/dashboard/page.tsx:31-37 | Once the session has settled the dashboard never waits |
| Dashboard.ListRequest | app/dashboard/page.tsx:40-43 | The list request has exactly one header, `Authorization`; it carries the cookie's token when the cookie has a truthy one, because the interceptor overwrites the page's header, and the page's token otherwise |
| Dashboard.ListRequestCarriesSessionToken | app/dashboard/page.tsx:39-43 | After mount, the list request carries the session's token whether it came from the cookie or from localStorage |
| Dashboard.FetchDocuments | app/dashboard/page.tsx:39-53 | A body replaces the list (missing means empty); a 401 logs out; other failures keep list and session; loading always ends |
| Dashboard.UnauthorizedStopsFetching | app/dashboard/page.tsx:45-49 | After a 401 no token is left anywhere and the effect does not fetch again |
| DocumentDetails.ResolveBlobUrl | app/documents/page.tsx:71-73 | The URL ends with the blob URL; an `http` blob URL is used as is; with no API base a relative blob URL gets `undefined` in front |
| DocumentDetails.KeepsBaseWithoutSuffix | app/documents/page.tsx:73 | An API base without `/api/v1` is put unchanged in front of a relative blob URL |
| DocumentDetails.StripsApiSuffix | app/documents/page.tsx:71-73 | For an API base `origin/api/v1rest` whose origin has no `/api/v1`, a relative blob URL resolves to `origin` + `rest` + blob URL |
| DocumentDetails.ResolveIsIdempotent | app/documents/page.tsx:71-73 | With an `http` API base every resolved URL is absolute, and resolving it again changes nothing |
| DocumentDetails.Effect | app/documents/page.tsx:29-35 | The document `id` is fetched iff both token and `id` are truthy; loading stops without a fetch iff the session is settled and unauthenticated |
| DocumentDetails.FetchDocumentReply | app/documents/page.tsx:37-48 | An answer replaces the document; a failure keeps it; loading always ends |
| DocumentDetails.View | app/documents/page.tsx:50-51 | The spinner shows iff auth or the page is loading; the details show iff nothing is loading and a document is loaded, with its file name and its resolved blob URL; otherwise "Document not found" |
| DocumentDetails.Mounted | app/documents/page.tsx:25-35 | After the effect's first run on the first render's values (no token, not loading) and its second on the settled session, loading has ended; a document is shown exactly when a token and an `id` fetched one, and it is the fetched document |
| DocumentDetails.MissingIdShowsNotFound | app/documents/page.tsx:25-51 | Without an `id` the page never fetches. The effect's first run sees the first render's values (no token, not loading) and already stops loading, so a settled session sees "Document not found", with or without a token |
| DocumentDetails.FailuresShowNotFound | app/documents/page.tsx:25-51 | After the effect's first two runs, a signed-out visitor and a failed fetch both end on "Document not found" |
| DocumentDetails.FetchedDocumentShows | app/documents/page.tsx:25-51 | With a token and an `id` whose fetch answers with a document, the page shows that document's file name and its resolved blob URL |

## Findings

| source | as written | input that shows it | evidently intended | confidence | as-written member | corrected member |
|---|---|---|---|---|---|---|
| app/verify/page.tsx:75-86 | After its `await`s, `handleVerify` writes the digest and verdict of the file it read at the start, even if another file was selected or dropped meanwhile. The drop zone and file input stay enabled while it waits | Select file A, press Verify, drop file B (with a different digest) before the answer returns | A late answer for a file no longer on display is discarded, so the digest and verdict shown always belong to the shown file | medium; not executed | VerifyPage.StaleVerdictAsWritten | VerifyPage.Settle |

`VerifyPage.SettleAsWritten` is the return step as written. `VerifyPage.Settle`
adds the guard, and `VerifyPage.RunKeepsCoherent` proves the page stays coherent
with it.

## Left out

- React rendering, routing and hooks. Each page's state is a datatype, each handler a function, and navigation is the returned path.
- Concurrency outside the verify page. The other handlers run to completion, so their in-flight `isLoading`, `loading`, `signing` and `isUploading` states are not modelled, and neither are races between overlapping handlers.
- VerifyPage.SettleAsWritten: the digest write (line 76) and the verdict writes (lines 83-93) are one step; an event falling between the hashing and the answer is modelled as falling before both.
- Network access. axios and the endpoints are parameters, so `NEXT_PUBLIC_API_URL` appears only in the details page's download URL.
- SHA-256. It is a parameter returning 32 bytes, or nothing when reading or hashing the file rejects, so hash collisions are outside the model.
- The wallet connection. `useAccount`'s address and `signMessageAsync` are parameters.
- zod's email syntax. It is the `isEmail` parameter, and the schemas' error messages are not modelled; validation returns the set of failing fields.
- The document.cookie setter string. The `expires=…; path=/` text is not parsed: a write takes the cookie's name, value and expiry directly, with the expiry already truncated to the second as the date string is (`Cookies.DayExpiry`). Cookie paths and size limits are not modelled.
- `toLowerCase` beyond ASCII, and string length in UTF-16 code units.
- The react-dropzone type test. It is modelled as a listed lowercased MIME type or a listed lowercased extension at the end of the name. With `maxFiles: 1`, a drop with more than one acceptable file takes none.
- The verify page's file-input `accept` attribute. It is a browser hint and is not modelled; a selected file of any type can be verified.
- The sign page's `form.reset` pre-fill of the signer email. The submitted values are a parameter.
- The dashboard's only button, "Sign In with Wallet" (app/dashboard/page.tsx:77), is not modelled separately: it calls `AuthSession.Login`. The dashboard never offers a logout; it logs out only when the document list answers 401 (`Dashboard.FetchDocuments`).
- The alternative `app/sign/[token]` page is not part of this model.
- AuthSession.Login: returns the issued token as the outcome rather than the whole verify answer, and does not model an answer without a `token` field.
- Cookie values containing `=` or `;`. The reader returns a value only up to its first `=`, as `Cookies.ReadHeader` states; the login and migration lemmas assume tokens free of both characters (`AuthSession.CookieSafe`).

=== FILE: auth_session.dfy ===
/** The `useAuth` hook (hooks/useAuth.ts): the bearer token held in a cookie,
    in localStorage and in hook state; the request interceptor that attaches
    it; the mount-time choice of token; challenge-response login; logout.

    The challenge endpoint, the wallet's `signMessageAsync` and the verify
    endpoint are parameters (`Services`) whose answers may be values or
    rejections; the clock is the `now` parameter in milliseconds. */
module AuthSession {
  import opened Base
  import opened Cookies

  /** What the hook can see: the cookie jar, the localStorage `authToken`
      item, and its own `token` and `isLoading` state. */
  datatype Session = Session(jar: seq<Cookie>, local: Option<string>, token: Option<string>, isLoading: bool)

  const NO_WALLET := "No wallet connected"
  const AUTHORIZATION := "Authorization"
  const BEARER := "Bearer "
  /** `Thu, 01 Jan 1970 00:00:00 UTC`, the expiry logout writes. */
  const EPOCH: nat := 0

  /** The `authToken` entry of `document.cookie` at time `now`. */
  function CookieToken(jar: seq<Cookie>, now: int): Option<string> {
    ReadAuthToken(Header(jar, now))
  }

  /** `isAuthenticated: !!token`. */
  predicate IsAuthenticated(s: Session) {
    Truthy(s.token)
  }

  /** The cookie both login and the localStorage migration write: 24 hours from
      now, to the whole second. */
  function AuthCookie(token: string, now: int): Cookie {
    Cookie(AUTH_COOKIE, token, DayExpiry(now))
  }

  /** A token that survives the round trip through `document.cookie` unchanged. */
  predicate CookieSafe(token: string) {
    '=' !in token && ';' !in token
  }

  // ---------------------------------------------------------------- interceptor

  /** An axios request config; `headers` may be absent. */
  datatype RequestConfig = RequestConfig(url: string, headers: Option<map<string, string>>)

  /** The request interceptor (hooks/useAuth.ts:8-24), given the current
      `document.cookie`. */
  function Decorate(config: RequestConfig, cookie: string): (out: RequestConfig)
    ensures out.url == config.url && (out.headers.Some? <==> config.headers.Some?)
    ensures Truthy(ReadAuthToken(cookie)) && config.headers.Some? ==>
      AUTHORIZATION in out.headers.value
      && out.headers.value[AUTHORIZATION] == BEARER + ReadAuthToken(cookie).value
    ensures config.headers.Some? ==>
      out.headers.value - {AUTHORIZATION} == config.headers.value - {AUTHORIZATION}
    ensures !Truthy(ReadAuthToken(cookie)) ==> out == config
  {
    var cookieToken := ReadAuthToken(cookie);
    if Truthy(cookieToken) && config.headers.Some? then
      config.(headers := Some(config.headers.value[AUTHORIZATION := BEARER + cookieToken.value]))
    else config
  }

  // ---------------------------------------------------------------- mount

  /** The mount effect of a fresh hook (hooks/useAuth.ts:32-54): a cookie token
      wins; otherwise a localStorage token is adopted and copied into the
      cookie for 24 hours, to the whole second; otherwise the token stays null. */
  function Init(jar: seq<Cookie>, local: Option<string>, now: int): (s: Session)
    ensures !s.isLoading && s.local == local
    ensures Truthy(CookieToken(jar, now)) ==> s.jar == jar && s.token == CookieToken(jar, now)
    ensures !Truthy(CookieToken(jar, now)) ==> s.token == (if Truthy(local) then local else None)
    ensures !Truthy(CookieToken(jar, now)) && !Truthy(local) ==> s.jar == jar
    // the migration writes the localStorage token with the 24-hour expiry and touches no other cookie
    ensures !Truthy(CookieToken(jar, now)) && Truthy(local) ==>
      Lookup(s.jar, AUTH_COOKIE) == Some(AuthCookie(local.value, now))
      && forall n :: n != AUTH_COOKIE ==> Lookup(s.jar, n) == Lookup(jar, n)
    ensures IsAuthenticated(s) <==> Truthy(CookieToken(jar, now)) || Truthy(local)
  {
    var cookieToken := CookieToken(jar, now);
    if Truthy(cookieToken) then Session(jar, local, cookieToken, false)
    else if Truthy(local) then Session(Write(jar, AuthCookie(local.value, now), now), local, local, false)
    else Session(jar, local, None, false)
  }

  /** After migrating a localStorage token the two stores agree until the
      cookie's expiry, 24 hours on to the whole second: until then the cookie
      reads back as the adopted token, and from then on it holds no token. */
  lemma InitMigrationSynchronises(jar: seq<Cookie>, local: Option<string>, now: int, at: int)
    requires WellFormed(jar) && !Truthy(CookieToken(jar, now))
    requires Truthy(local) && CookieSafe(local.value)
    ensures Init(jar, local, now).token == local
    ensures at < DayExpiry(now) ==> CookieToken(Init(jar, local, now).jar, at) == local
    ensures at >= DayExpiry(now) ==> CookieToken(Init(jar, local, now).jar, at) == None
    ensures WellFormed(Init(jar, local, now).jar)
  {
    var s := Init(jar, local, now);
    assert s.jar == Write(jar, AuthCookie(local.value, now), now);
    assert ValidCookie(AuthCookie(local.value, now));
    ReadAfterWrite(jar, local.value, DayExpiry(now), now, at);
  }

  // ---------------------------------------------------------------- login

  /** The requests login makes, in order. */
  datatype Call =
    | ChallengeCall(address: string)
    | SignCall(message: string)
    | VerifyCall(address: string, message: string, signature: string)

  /** `POST /auth/challenge`, the wallet's `signMessageAsync`, `POST /auth/verify`. */
  datatype Services = Services(
    challenge: string -> Result<string, string>,
    sign: string -> Result<string, string>,
    verify: (string, string, string) -> Result<string, string>)

  /** How the services answer a call. */
  function Response(svc: Services, call: Call): Result<string, string> {
    match call
    case ChallengeCall(a) => svc.challenge(a)
    case SignCall(m) => svc.sign(m)
    case VerifyCall(a, m, sig) => svc.verify(a, m, sig)
  }

  /** The state after login, the calls it made, and what it returned or threw. */
  datatype LoginRun = LoginRun(session: Session, calls: seq<Call>, outcome: Result<string, string>)

  /** `login` (hooks/useAuth.ts:56-95). */
  function Login(s: Session, address: Option<string>, svc: Services, now: int): (run: LoginRun)
    // without a wallet: thrown before any request or state change
    ensures !Truthy(address) ==> run == LoginRun(s, [], Err(NO_WALLET))
    // every call before the last succeeded; the outcome is the last call's answer
    ensures Truthy(address) ==>
      1 <= |run.calls| <= 3 && run.calls[0] == ChallengeCall(address.value)
      && (forall k :: 0 <= k < |run.calls| - 1 ==> Response(svc, run.calls[k]).Ok?)
      && run.outcome == Response(svc, run.calls[|run.calls| - 1])
      && !run.session.isLoading
    // the wallet signs the challenge it was given
    ensures forall k :: 1 <= k < |run.calls| ==>
      run.calls[k] == SignCall(svc.challenge(address.value).value) ==> k == 1
    ensures 2 <= |run.calls| ==> run.calls[1] == SignCall(svc.challenge(address.value).value)
    // verify gets back the same address and message, with the signature over that message
    ensures |run.calls| == 3 ==>
      run.calls[2] == VerifyCall(address.value, run.calls[1].message, svc.sign(run.calls[1].message).value)
    // success: cookie (24 hours, to the whole second), localStorage and state all hold the issued token
    ensures run.outcome.Ok? ==>
      |run.calls| == 3
      && run.session == Session(Write(s.jar, AuthCookie(run.outcome.value, now), now),
                                Some(run.outcome.value), Some(run.outcome.value), false)
    // failure with a wallet: nothing is stored, only isLoading ends false
    ensures Truthy(address) && run.outcome.Err? ==> run.session == s.(isLoading := false)
  {
    if !Truthy(address) then LoginRun(s, [], Err(NO_WALLET))
    else
      var a := address.value;
      var failed := s.(isLoading := false);
      match svc.challenge(a)
      case Err(e) => LoginRun(failed, [ChallengeCall(a)], Err(e))
      case Ok(message) =>
        match svc.sign(message)
        case Err(e) => LoginRun(failed, [ChallengeCall(a), SignCall(message)], Err(e))
        case Ok(signature) =>
          var calls := [ChallengeCall(a), SignCall(message), VerifyCall(a, message, signature)];
          match svc.verify(a, message, signature)
          case Err(e) => LoginRun(failed, calls, Err(e))
          case Ok(token) =>
            LoginRun(Session(Write(s.jar, AuthCookie(token, now), now), Some(token), Some(token), false), calls, Ok(token))
  }

  /** Until the cookie's expiry, 24 hours after a successful login to the whole
      second, every request carries the issued token as `Bearer`, and a reload
      finds the same token. */
  lemma LoginAuthorizesRequests(s: Session, address: Option<string>, svc: Services, now: int,
                                at: int, config: RequestConfig)
    requires WellFormed(s.jar)
    requires Login(s, address, svc, now).outcome.Ok?
    requires Login(s, address, svc, now).outcome.value != ""
    requires CookieSafe(Login(s, address, svc, now).outcome.value)
    requires at < DayExpiry(now) && config.headers.Some?
    ensures var run := Login(s, address, svc, now);
      var out := Decorate(config, Header(run.session.jar, at));
      AUTHORIZATION in out.headers.value && out.headers.value[AUTHORIZATION] == BEARER + run.outcome.value
    ensures var run := Login(s, address, svc, now);
      Init(run.session.jar, run.session.local, at).token == Some(run.outcome.value)
  {
    var run := Login(s, address, svc, now);
    ReadAfterWrite(s.jar, run.outcome.value, DayExpiry(now), now, at);
  }

  /** Once the cookie has expired the interceptor stops sending the token, but a
      reload takes it back from localStorage, which login never expires, and
      writes it into the cookie for another 24 hours. */
  lemma LocalStorageOutlivesCookie(s: Session, address: Option<string>, svc: Services, now: int, at: int)
    requires WellFormed(s.jar)
    requires Login(s, address, svc, now).outcome.Ok?
    requires Login(s, address, svc, now).outcome.value != ""
    requires CookieSafe(Login(s, address, svc, now).outcome.value)
    requires at >= DayExpiry(now)
    ensures var run := Login(s, address, svc, now);
      CookieToken(run.session.jar, at) == None
      && Init(run.session.jar, run.session.local, at).token == Some(run.outcome.value)
      && CookieToken(Init(run.session.jar, run.session.local, at).jar, at) == Some(run.outcome.value)
  {
    var run := Login(s, address, svc, now);
    var t := run.outcome.value;
    ReadAfterWrite(s.jar, t, DayExpiry(now), now, at);
    assert ValidCookie(AuthCookie(t, now));
    InitMigrationSynchronises(run.session.jar, run.session.local, at, at);
  }

  // ---------------------------------------------------------------- logout

  /** `logout` (hooks/useAuth.ts:97-101): expire the cookie, drop the
      localStorage item, null the state token. */
  function Logout(s: Session, now: nat): (r: Session)
    ensures !IsAuthenticated(r) && r.local == None && r.isLoading == s.isLoading
    ensures Lookup(r.jar, AUTH_COOKIE) == None
    ensures forall n :: n != AUTH_COOKIE ==> Lookup(r.jar, n) == Lookup(s.jar, n)
    ensures WellFormed(s.jar) ==> WellFormed(r.jar)
  {
    Session(Write(s.jar, Cookie(AUTH_COOKIE, "", EPOCH), now), None, None, s.isLoading)
  }

  /** Logout survives a reload: no cookie token, nothing to migrate, and the
      interceptor leaves requests alone. */
  lemma LogoutIsDurable(s: Session, now: nat, at: int, config: RequestConfig)
    requires WellFormed(s.jar)
    ensures CookieToken(Logout(s, now).jar, at) == None
    ensures !IsAuthenticated(Init(Logout(s, now).jar, Logout(s, now).local, at))
    ensures Decorate(config, Header(Logout(s, now).jar, at)) == config
  {
    ReadAfterDelete(s.jar, "", EPOCH, now, at);
  }
}

=== FILE: base.dfy ===
/** Values shared by every page model: failure-carrying results, JavaScript
    truthiness and template interpolation of nullable strings, and the
    browser's `File`. */
module Base {

  /** A value that may be `null`/`undefined` in the client. */
  datatype Option<+T> = None | Some(value: T)

  /** The outcome of an awaited call: a value, or the error it was rejected with. */
  datatype Result<+T, +E> = Ok(value: T) | Err(error: E)

  /** `!!s` for a `string | null | undefined`: null, undefined and "" are falsy. */
  predicate Truthy(s: Option<string>) {
    s.Some? && s.value != ""
  }

  /** `${s}` for a `string | undefined`: a missing value is written as `undefined`. */
  function Interpolate(s: Option<string>): string {
    if s.Some? then s.value else "undefined"
  }

  /** A string field of an untyped JSON answer: absent, `null`, or a string. */
  datatype JsonString = Absent | Null | Str(text: string)

  /** `${field}` for such a field: `undefined`, `null`, or the string itself. */
  function InterpolateField(f: JsonString): string {
    match f
    case Absent => Interpolate(None)
    case Null => "null"
    case Str(t) => t
  }

  /** One element of a `Uint8Array`. */
  type byte = x: int | 0 <= x < 256

  /** A browser `File`: its name, MIME type and content. */
  datatype File = File(name: string, mimeType: string, content: seq<byte>)
}

=== FILE: cookies.dfy ===
/** The browser cookie jar behind `document.cookie`, and the reader the auth
    hook uses to pull the `authToken` entry out of it (hooks/useAuth.ts:11-14,
    35-38).

    Reading `document.cookie` yields the live cookies as `name=value` joined by
    `"; "`; assigning to it stores one cookie, and a cookie whose expiry is not
    after the current time is deleted instead. Times are milliseconds. */
module Cookies {
  import opened Base
  import opened Text

  const AUTH_COOKIE := "authToken"
  const AUTH_PREFIX := "authToken="
  const ENTRY_SEPARATOR := "; "
  /** The lifetime the hook gives the `authToken` cookie: 24 hours. */
  const DAY_MS := 24 * 60 * 60 * 1000

  /** The expiry the hook writes 24 hours from `now`: `date.toUTCString()`
      (hooks/useAuth.ts:48-50, 79-81) keeps whole seconds only, so the cookie
      lapses at the start of the second in which `now + DAY_MS` falls. */
  function DayExpiry(now: int): (e: int)
    ensures e % 1000 == 0
    ensures now + DAY_MS - 1000 < e <= now + DAY_MS
  {
    (now + DAY_MS) / 1000 * 1000
  }

  datatype Cookie = Cookie(name: string, value: string, expires: int)

  /** What a browser lets through `document.cookie` and shows back as
      `name=value`: the name is non-empty and has no `=`, and neither part has
      a `;`. (A nameless cookie would be shown as its bare value.) */
  predicate ValidCookie(c: Cookie) {
    c.name != "" && '=' !in c.name && ';' !in c.name && ';' !in c.value
  }

  function Names(jar: seq<Cookie>): set<string>
    decreases |jar|
  {
    if |jar| == 0 then {} else {jar[0].name} + Names(jar[1..])
  }

  /** Every cookie is valid and no two share a name. */
  predicate WellFormed(jar: seq<Cookie>)
    decreases |jar|
  {
    |jar| == 0 || (ValidCookie(jar[0]) && jar[0].name !in Names(jar[1..]) && WellFormed(jar[1..]))
  }

  /** The first cookie called `name`. */
  function Lookup(jar: seq<Cookie>, name: string): (r: Option<Cookie>)
    ensures r.None? <==> name !in Names(jar)
    ensures r.Some? ==> r.value.name == name && r.value in jar
    decreases |jar|
  {
    if |jar| == 0 then None
    else if jar[0].name == name then Some(jar[0])
    else Lookup(jar[1..], name)
  }

  /** The value of the cookie called `name`, if it has not expired at `now`. */
  function LiveValue(jar: seq<Cookie>, name: string, now: int): Option<string> {
    match Lookup(jar, name)
    case Some(c) => if c.expires > now then Some(c.value) else None
    case None => None
  }

  /** Stores `c`, replacing the cookie of the same name in place, or appending it. */
  function Upsert(jar: seq<Cookie>, c: Cookie): (r: seq<Cookie>)
    ensures Names(r) == Names(jar) + {c.name}
    ensures forall n :: Lookup(r, n) == if n == c.name then Some(c) else Lookup(jar, n)
    ensures WellFormed(jar) && ValidCookie(c) ==> WellFormed(r)
    decreases |jar|
  {
    if |jar| == 0 then [c]
    else if jar[0].name == c.name then
      assert ([c] + jar[1..])[1..] == jar[1..];
      [c] + jar[1..]
    else
      var rest := Upsert(jar[1..], c);
      assert ([jar[0]] + rest)[1..] == rest;
      [jar[0]] + rest
  }

  /** Deletes every cookie called `name`. */
  function Remove(jar: seq<Cookie>, name: string): (r: seq<Cookie>)
    ensures Names(r) == Names(jar) - {name}
    ensures forall n :: Lookup(r, n) == if n == name then None else Lookup(jar, n)
    ensures WellFormed(jar) ==> WellFormed(r)
    decreases |jar|
  {
    if |jar| == 0 then []
    else if jar[0].name == name then Remove(jar[1..], name)
    else
      var rest := Remove(jar[1..], name);
      assert ([jar[0]] + rest)[1..] == rest;
      [jar[0]] + rest
  }

  /** Assigning `c` to `document.cookie` at time `now`. */
  function Write(jar: seq<Cookie>, c: Cookie, now: int): (r: seq<Cookie>)
    ensures forall n :: Lookup(r, n) == if n != c.name then Lookup(jar, n) else if c.expires > now then Some(c) else None
    ensures WellFormed(jar) && ValidCookie(c) ==> WellFormed(r)
  {
    if c.expires <= now then Remove(jar, c.name) else Upsert(jar, c)
  }

  /** The cookies that have not expired at `now`, in jar order. */
  function Live(jar: seq<Cookie>, now: int): (r: seq<Cookie>)
    ensures Names(r) <= Names(jar)
    ensures forall k :: 0 <= k < |r| ==> r[k].expires > now && r[k] in jar
    ensures WellFormed(jar) ==> WellFormed(r)
    ensures WellFormed(jar) ==>
      forall n :: Lookup(r, n) == if Lookup(jar, n).Some? && Lookup(jar, n).value.expires > now then Lookup(jar, n) else None
    decreases |jar|
  {
    if |jar| == 0 then []
    else
      var rest := Live(jar[1..], now);
      if jar[0].expires > now then
        assert ([jar[0]] + rest)[1..] == rest;
        [jar[0]] + rest
      else rest
  }

  function Render(c: Cookie): string {
    c.name + "=" + c.value
  }

  function RenderAll(cs: seq<Cookie>): (rows: seq<string>)
    ensures |rows| == |cs|
    ensures forall k :: 0 <= k < |cs| ==> rows[k] == Render(cs[k])
  {
    seq(|cs|, k requires 0 <= k < |cs| => Render(cs[k]))
  }

  /** Reading `document.cookie` at time `now`. */
  function Header(jar: seq<Cookie>, now: int): (h: string)
    ensures h == "" <==> |Live(jar, now)| == 0
    ensures |Live(jar, now)| > 0 ==> StartsWith(h, Render(Live(jar, now)[0]))
  {
    Join(RenderAll(Live(jar, now)), ENTRY_SEPARATOR)
  }

  /** `rows.find(row => row.startsWith(prefix))`. */
  function FindRow(rows: seq<string>, prefix: string): (r: Option<string>)
    ensures r.Some? <==> exists k :: 0 <= k < |rows| && StartsWith(rows[k], prefix)
    ensures r.Some? ==> StartsWith(r.value, prefix)
    ensures r.Some? ==>
      exists k :: 0 <= k < |rows| && rows[k] == r.value
        && forall j :: 0 <= j < k ==> !StartsWith(rows[j], prefix)
    decreases |rows|
  {
    if |rows| == 0 then None
    else if StartsWith(rows[0], prefix) then Some(rows[0])
    else
      var r := FindRow(rows[1..], prefix);
      assert forall k :: 1 <= k < |rows| ==> rows[k] == rows[1..][k - 1];
      r
  }

  /** A row starting with `authToken=` splits on `=` into `authToken` and the pieces of the rest. */
  lemma AuthRowSplit(row: string)
    requires StartsWith(row, AUTH_PREFIX)
    ensures Split(row, "=") == [AUTH_COOKIE] + Split(row[|AUTH_PREFIX|..], "=")
  {
    var rest := row[|AUTH_PREFIX|..];
    assert row == AUTH_COOKIE + "=" + rest;
    FirstSeparatorAfterPiece(AUTH_COOKIE, "=", rest);
    SplitAt(row, "=", |AUTH_COOKIE|);
  }

  /** `row.split('=')[1]` for a row that starts with `authToken=`. */
  function RowValue(row: string): (v: string)
    requires StartsWith(row, AUTH_PREFIX)
  {
    AuthRowSplit(row);
    Split(row, "=")[1]
  }

  /** What `row.split('=')[1]` keeps: the text between the first and the second `=`. */
  lemma RowValueShape(row: string)
    requires StartsWith(row, AUTH_PREFIX)
    ensures '=' !in RowValue(row)
    ensures row == AUTH_PREFIX + RowValue(row) || StartsWith(row, AUTH_PREFIX + RowValue(row) + "=")
  {
    var rest := row[|AUTH_PREFIX|..];
    AuthRowSplit(row);
    var v := Split(rest, "=")[0];
    assert RowValue(row) == v;
    SplitHead(rest, "=");
    ContainsChar(v, '=');
    assert row == AUTH_PREFIX + rest;
    if v != rest {
      StartsWithAfter(AUTH_PREFIX, rest, v + "=");
      assert AUTH_PREFIX + (v + "=") == AUTH_PREFIX + v + "=";
    }
  }

  /** The `authToken` reader of hooks/useAuth.ts:11-14: split the cookie string
      on `"; "`, take the first entry starting with `authToken=`, and keep the
      text between its first and second `=`. */
  function ReadAuthToken(cookie: string): (r: Option<string>)
    ensures r.Some? <==>
      exists k :: 0 <= k < |Split(cookie, ENTRY_SEPARATOR)|
        && StartsWith(Split(cookie, ENTRY_SEPARATOR)[k], AUTH_PREFIX)
    ensures r.Some? ==> '=' !in r.value
  {
    match FindRow(Split(cookie, ENTRY_SEPARATOR), AUTH_PREFIX)
    case None => None
    case Some(row) =>
      RowValueShape(row);
      assert exists k :: 0 <= k < |Split(cookie, ENTRY_SEPARATOR)| && StartsWith(Split(cookie, ENTRY_SEPARATOR)[k], AUTH_PREFIX);
      Some(RowValue(row))
  }

  /** `rows[k]` is the first row starting with `authToken=`. */
  predicate FirstAuthRow(rows: seq<string>, k: int) {
    0 <= k < |rows| && StartsWith(rows[k], AUTH_PREFIX)
    && forall j :: 0 <= j < k ==> !StartsWith(rows[j], AUTH_PREFIX)
  }

  /** `t` is what follows `authToken=` in `row`, up to the end or to the next `=`. */
  predicate TokenOfRow(row: string, t: string) {
    '=' !in t && (row == AUTH_PREFIX + t || StartsWith(row, AUTH_PREFIX + t + "="))
  }

  /** The token read is taken from the first `authToken=` entry: it is the whole
      rest of that entry, or the part of it before a further `=`. */
  lemma ReadAuthTokenSource(cookie: string)
    requires ReadAuthToken(cookie).Some?
    ensures exists k ::
        FirstAuthRow(Split(cookie, ENTRY_SEPARATOR), k)
        && TokenOfRow(Split(cookie, ENTRY_SEPARATOR)[k], ReadAuthToken(cookie).value)
  {
    var rows := Split(cookie, ENTRY_SEPARATOR);
    var row := FindRow(rows, AUTH_PREFIX).value;
    var k :| 0 <= k < |rows| && rows[k] == row && forall j :: 0 <= j < k ==> !StartsWith(rows[j], AUTH_PREFIX);
    RowValueShape(row);
    var t := ReadAuthToken(cookie).value;
    assert t == RowValue(row);
    assert FirstAuthRow(rows, k) && TokenOfRow(rows[k], t);
  }

  /** A value as the reader hands it back: up to its first `=`. */
  function UpToEquals(v: string): string {
    Split(v, "=")[0]
  }

  /** A rendered cookie starts with `authToken=` exactly when it is the `authToken` cookie. */
  lemma RenderedAuthRow(c: Cookie)
    requires ValidCookie(c)
    ensures StartsWith(Render(c), AUTH_PREFIX) <==> c.name == AUTH_COOKIE
  {
    var r := Render(c);
    var n := |c.name|;
    assert r[n] == '=';
    assert forall i :: 0 <= i < n ==> r[i] == c.name[i] != '=';
    if StartsWith(r, AUTH_PREFIX) {
      assert forall i :: 0 <= i < |AUTH_COOKIE| ==> r[i] == AUTH_PREFIX[i] != '=';
      assert r[|AUTH_COOKIE|] == '=';
      assert n == |AUTH_COOKIE|;
      assert c.name == r[..n];
    }
  }

  /** Among rendered valid cookies, the reader's `find` stops at the first `authToken` cookie. */
  lemma {:induction false} FindRendered(cs: seq<Cookie>)
    requires forall k :: 0 <= k < |cs| ==> ValidCookie(cs[k])
    ensures FindRow(RenderAll(cs), AUTH_PREFIX) ==
      match Lookup(cs, AUTH_COOKIE) case None => None case Some(c) => Some(Render(c))
    decreases |cs|
  {
    if |cs| > 0 {
      RenderedAuthRow(cs[0]);
      assert RenderAll(cs)[1..] == RenderAll(cs[1..]);
      FindRendered(cs[1..]);
    }
  }

  /** The text after `authToken=` is read back up to its first `=`. */
  lemma RowValueOfAuth(v: string)
    ensures RowValue(AUTH_PREFIX + v) == UpToEquals(v)
  {
    var row := AUTH_PREFIX + v;
    assert row == AUTH_COOKIE + "=" + v;
    FirstSeparatorAfterPiece(AUTH_COOKIE, "=", v);
    SplitAt(row, "=", |AUTH_COOKIE|);
    assert row[|AUTH_COOKIE| + 1..] == v;
  }

  /** Splitting `document.cookie` on `"; "` gives back one row per live cookie
      (or the single empty row of an empty jar). */
  lemma SplitHeader(jar: seq<Cookie>, now: int)
    requires WellFormed(jar)
    ensures var live := Live(jar, now);
      Split(Header(jar, now), ENTRY_SEPARATOR) == if |live| == 0 then [""] else RenderAll(live)
  {
    var live := Live(jar, now);
    var rows := RenderAll(live);
    if |live| == 0 {
      SplitWithoutSeparator("", ENTRY_SEPARATOR);
    } else {
      WellFormedValid(live);
      forall k | 0 <= k < |rows|
        ensures ENTRY_SEPARATOR[0] !in rows[k]
      {
        assert rows[k] == live[k].name + "=" + live[k].value;
      }
      SplitOfJoin(rows, ENTRY_SEPARATOR);
    }
  }

  /** What the reader makes of a well-formed jar: the live `authToken` cookie's
      value, cut at its first `=`, or nothing when there is no live one. */
  lemma ReadHeader(jar: seq<Cookie>, now: int)
    requires WellFormed(jar)
    ensures ReadAuthToken(Header(jar, now)) ==
      match LiveValue(jar, AUTH_COOKIE, now) case None => None case Some(v) => Some(UpToEquals(v))
  {
    var live := Live(jar, now);
    SplitHeader(jar, now);
    WellFormedValid(live);
    FindRendered(live);
    if |live| == 0 {
      assert FindRow([""], AUTH_PREFIX) == None;
    }
    match Lookup(live, AUTH_COOKIE)
    case None =>
    case Some(c) => RowValueOfAuth(c.value);
  }

  lemma {:induction false} WellFormedValid(jar: seq<Cookie>)
    requires WellFormed(jar)
    ensures forall k :: 0 <= k < |jar| ==> ValidCookie(jar[k])
    decreases |jar|
  {
    if |jar| > 0 {
      WellFormedValid(jar[1..]);
      assert forall k :: 1 <= k < |jar| ==> jar[k] == jar[1..][k - 1];
    }
  }

  /** A value with no `=` is read back whole. */
  lemma UpToEqualsWhole(v: string)
    requires '=' !in v
    ensures UpToEquals(v) == v
  {
    SplitWithoutSeparator(v, "=");
  }

  /** Reading back a cookie written at `now` with a later expiry gives its value
      at every time before that expiry, and nothing from then on. */
  lemma ReadAfterWrite(jar: seq<Cookie>, v: string, expires: int, now: int, at: int)
    requires WellFormed(jar) && '=' !in v && ';' !in v && now < expires
    ensures at < expires ==>
      ReadAuthToken(Header(Write(jar, Cookie(AUTH_COOKIE, v, expires), now), at)) == Some(v)
    ensures at >= expires ==>
      ReadAuthToken(Header(Write(jar, Cookie(AUTH_COOKIE, v, expires), now), at)) == None
  {
    var c := Cookie(AUTH_COOKIE, v, expires);
    var jar' := Write(jar, c, now);
    assert ValidCookie(c);
    assert Lookup(jar', AUTH_COOKIE) == Some(c);
    ReadHeader(jar', at);
    UpToEqualsWhole(v);
  }

  /** After the `authToken` cookie is written with an expiry not after `now`, the
      reader finds nothing at any later time. */
  lemma ReadAfterDelete(jar: seq<Cookie>, v: string, expires: int, now: int, at: int)
    requires WellFormed(jar) && ';' !in v && expires <= now
    ensures ReadAuthToken(Header(Write(jar, Cookie(AUTH_COOKIE, v, expires), now), at)) == None
  {
    var c := Cookie(AUTH_COOKIE, v, expires);
    assert ValidCookie(c);
    ReadHeader(Write(jar, c, now), at);
  }
}

=== FILE: create_page.dfy ===
/** The document-creation page (app/create/page.tsx): the form schema, the
    dropzone that takes the file, and `onSubmit`, which builds the multipart
    request and either navigates to the new document or alerts.

    zod's `.email()` check is the parameter `isEmail`; `POST /documents` is the
    parameter `post`, answering with the created document's `id` (which may be
    missing) or a rejection. */
module CreatePage {
  import opened Base
  import opened Text
  import opened HexCodec

  const MIN_NAME := 2
  const ADDRESS_PREFIX := "0x"
  const ADDRESS_DIGITS := 40
  const CREATE_FAILED := "Failed to create document. Please try again."
  const DOCUMENTS_PATH := "/documents/"

  /** The multipart field names of `POST /documents`. */
  const KEY_FILE := "file"
  const KEY_OWNER := "ownerAddress"
  const KEY_EMAIL := "signerEmail"
  const KEY_FIRST := "signerFirstName"
  const KEY_LAST := "signerLastName"
  const KEY_SIGNER := "signerAddress"

  // ---------------------------------------------------------------- form schema

  /** The fields of `formSchema` (app/create/page.tsx:17-22). */
  datatype Field = SignerEmail | SignerFirstName | SignerLastName | SignerAddress

  /** The form values; `signerAddress` is optional in the schema. */
  datatype CreateForm = CreateForm(signerEmail: string, signerFirstName: string,
                                   signerLastName: string, signerAddress: Option<string>)

  /** `/^0x[a-fA-F0-9]{40}$/`. */
  predicate IsEthAddress(s: string) {
    |s| == 2 + ADDRESS_DIGITS && StartsWith(s, ADDRESS_PREFIX)
    && forall i :: 2 <= i < |s| ==> IsHexChar(s[i])
  }

  /** `z.string().min(2)`. */
  predicate NameAllowed(s: string) {
    |s| >= MIN_NAME
  }

  /** The fields `formSchema` rejects: an email `isEmail` refuses, a name shorter
      than two characters, an address that is present, non-empty and not an
      Ethereum address. */
  function Validate(form: CreateForm, isEmail: string -> bool): (failing: set<Field>)
    ensures SignerEmail in failing <==> !isEmail(form.signerEmail)
    ensures SignerFirstName in failing <==> !NameAllowed(form.signerFirstName)
    ensures SignerLastName in failing <==> !NameAllowed(form.signerLastName)
    ensures SignerAddress in failing <==>
      form.signerAddress.Some? && form.signerAddress.value != "" && !IsEthAddress(form.signerAddress.value)
  {
    (if isEmail(form.signerEmail) then {} else {SignerEmail})
    + (if NameAllowed(form.signerFirstName) then {} else {SignerFirstName})
    + (if NameAllowed(form.signerLastName) then {} else {SignerLastName})
    + (match form.signerAddress
       case Some(a) => if a == "" || IsEthAddress(a) then {} else {SignerAddress}
       case None => {})
  }

  /** An accepted address is the `0x` rendering of exactly 20 bytes, up to the
      case of its letters. */
  lemma EthAddressIsTwentyBytes(s: string)
    requires IsEthAddress(s)
    ensures Unhex(s[2..]).Some? && |Unhex(s[2..]).value| == 20
    ensures ADDRESS_PREFIX + Hex(Unhex(s[2..]).value) == LowerAscii(s)
  {
    HexOfUnhex(s[2..]);
    assert s == s[..2] + s[2..];
    LowerAsciiAppend(s[..2], s[2..]);
  }

  /** Conversely every 20-byte value rendered with `0x` is accepted. */
  lemma TwentyBytesAreEthAddress(b: seq<byte>)
    requires |b| == 20
    ensures IsEthAddress(ADDRESS_PREFIX + Hex(b))
  {
    HexIsLowercaseDigits(b);
    var s := ADDRESS_PREFIX + Hex(b);
    assert forall i :: 2 <= i < |s| ==> s[i] == Hex(b)[i - 2];
  }

  // ---------------------------------------------------------------- dropzone

  /** The dropzone's `accept` map (app/create/page.tsx:49-56): each MIME type
      with its extensions. */
  const ACCEPT: seq<(string, seq<string>)> := [
    ("application/pdf", [".pdf"]),
    ("application/msword", [".doc"]),
    ("application/vnd.openxmlformats-officedocument.wordprocessingml.document", [".docx"]),
    ("text/plain", [".txt"]),
    ("image/png", [".png"]),
    ("image/jpeg", [".jpg", ".jpeg"])
  ]

  const MAX_FILES := 1

  function MimeTypes(table: seq<(string, seq<string>)>): (r: seq<string>)
    ensures |r| == |table|
    ensures forall k :: 0 <= k < |table| ==> r[k] == table[k].0
  {
    if |table| == 0 then [] else [table[0].0] + MimeTypes(table[1..])
  }

  function Extensions(table: seq<(string, seq<string>)>): seq<string> {
    if |table| == 0 then [] else table[0].1 + Extensions(table[1..])
  }

  /** The dropzone's type test: the lowercased MIME type is listed, or the
      lowercased file name ends with a listed extension. */
  predicate Accepts(f: File) {
    LowerAscii(f.mimeType) in MimeTypes(ACCEPT)
    || exists e :: e in Extensions(ACCEPT) && EndsWith(LowerAscii(f.name), e)
  }

  /** The dropped files that pass the type test, in order. */
  function Acceptable(files: seq<File>): (r: seq<File>)
    ensures |r| <= |files|
    ensures forall f :: f in r <==> f in files && Accepts(f)
  {
    if |files| == 0 then []
    else if Accepts(files[0]) then [files[0]] + Acceptable(files[1..])
    else Acceptable(files[1..])
  }

  /** What the dropzone hands to `onDrop` with `maxFiles: 1`: the acceptable
      file when there is exactly one, and nothing when more than one passes. */
  function DropzoneTake(files: seq<File>): (r: seq<File>)
    ensures |r| <= MAX_FILES
    ensures forall f :: f in r ==> f in files && Accepts(f)
    ensures |r| == 1 <==> |Acceptable(files)| == 1
  {
    var ok := Acceptable(files);
    if |ok| > MAX_FILES then [] else ok
  }

  /** `onDrop` (app/create/page.tsx:40-44): the taken file replaces the current
      one; when nothing was taken the current file stays. */
  function OnDrop(current: Option<File>, dropped: seq<File>): (r: Option<File>)
    ensures r == current || (r.Some? && r.value in dropped && Accepts(r.value))
    ensures |Acceptable(dropped)| == 1 ==> r == Some(Acceptable(dropped)[0])
    ensures |Acceptable(dropped)| != 1 ==> r == current
  {
    var taken := DropzoneTake(dropped);
    if |taken| > 0 then Some(taken[0]) else current
  }

  /** The allow-list exactly: six MIME types and seven extensions. */
  lemma AllowList()
    ensures MimeTypes(ACCEPT) == ["application/pdf", "application/msword",
      "application/vnd.openxmlformats-officedocument.wordprocessingml.document",
      "text/plain", "image/png", "image/jpeg"]
    ensures Extensions(ACCEPT) == [".pdf", ".doc", ".docx", ".txt", ".png", ".jpg", ".jpeg"]
  {
  }

  // ---------------------------------------------------------------- submission

  /** A `FormData` value: text or a file. */
  datatype FormValue = TextValue(text: string) | FileValue(file: File)

  datatype Entry = Entry(key: string, value: FormValue)

  function Keys(entries: seq<Entry>): (r: seq<string>)
    ensures |r| == |entries| && forall k :: 0 <= k < |entries| ==> r[k] == entries[k].key
  {
    if |entries| == 0 then [] else [entries[0].key] + Keys(entries[1..])
  }

  /** `formData.get(key)`: the first value stored under `key`. */
  function Get(entries: seq<Entry>, key: string): (r: Option<FormValue>)
    ensures r.None? <==> key !in Keys(entries)
  {
    if |entries| == 0 then None
    else if entries[0].key == key then Some(entries[0].value)
    else Get(entries[1..], key)
  }

  /** `get` finds the first entry stored under a key. */
  lemma {:induction false} GetFirst(entries: seq<Entry>, k: nat, key: string)
    requires k < |entries| && entries[k].key == key
    requires forall j :: 0 <= j < k ==> entries[j].key != key
    ensures Get(entries, key) == Some(entries[k].value)
    decreases k
  {
    if k > 0 {
      GetFirst(entries[1..], k - 1, key);
    }
  }

  /** The multipart body `onSubmit` builds (app/create/page.tsx:64-72). */
  function CreateEntries(file: File, owner: string, values: CreateForm): (entries: seq<Entry>)
    ensures |entries| == if Truthy(values.signerAddress) then 6 else 5
  {
    [Entry(KEY_FILE, FileValue(file)),
     Entry(KEY_OWNER, TextValue(owner)),
     Entry(KEY_EMAIL, TextValue(values.signerEmail)),
     Entry(KEY_FIRST, TextValue(values.signerFirstName)),
     Entry(KEY_LAST, TextValue(values.signerLastName))]
    + (if Truthy(values.signerAddress) then [Entry(KEY_SIGNER, TextValue(values.signerAddress.value))] else [])
  }

  /** What the receiving side reads out of the body. */
  datatype CreateRequest = CreateRequest(file: File, ownerAddress: string, signerEmail: string,
                                         signerFirstName: string, signerLastName: string,
                                         signerAddress: Option<string>)

  function GetText(entries: seq<Entry>, key: string): Option<string> {
    match Get(entries, key)
    case Some(TextValue(t)) => Some(t)
    case _ => None
  }

  /** Reads a creation request out of a multipart body; fails when a required
      entry is missing or has the wrong kind. */
  function ReadCreateRequest(entries: seq<Entry>): (r: Option<CreateRequest>)
    ensures r.Some? ==> Get(entries, KEY_FILE) == Some(FileValue(r.value.file))
    ensures r.Some? ==> GetText(entries, KEY_OWNER) == Some(r.value.ownerAddress)
  {
    var file := Get(entries, KEY_FILE);
    var owner := GetText(entries, KEY_OWNER);
    var email := GetText(entries, KEY_EMAIL);
    var first := GetText(entries, KEY_FIRST);
    var last := GetText(entries, KEY_LAST);
    if file.Some? && file.value.FileValue? && owner.Some? && email.Some? && first.Some? && last.Some? then
      Some(CreateRequest(file.value.file, owner.value, email.value, first.value, last.value,
                         GetText(entries, KEY_SIGNER)))
    else None
  }

  /** The first five entries of the body, in order. */
  lemma CreateEntriesPrefix(file: File, owner: string, values: CreateForm)
    ensures |CreateEntries(file, owner, values)| >= 5
    ensures CreateEntries(file, owner, values)[..5] ==
      [Entry(KEY_FILE, FileValue(file)), Entry(KEY_OWNER, TextValue(owner)),
       Entry(KEY_EMAIL, TextValue(values.signerEmail)), Entry(KEY_FIRST, TextValue(values.signerFirstName)),
       Entry(KEY_LAST, TextValue(values.signerLastName))]
  {
  }

  /** Each of the first five entries is the one `get` finds under its key:
      the field names all differ in length. */
  lemma RequiredEntry(file: File, owner: string, values: CreateForm, k: nat)
    requires k < 5
    ensures Get(CreateEntries(file, owner, values), CreateEntries(file, owner, values)[k].key) ==
      Some(CreateEntries(file, owner, values)[k].value)
  {
    var entries := CreateEntries(file, owner, values);
    CreateEntriesPrefix(file, owner, values);
    var lengths := [4, 12, 11, 15, 14];
    forall j | 0 <= j < 5
      ensures |entries[j].key| == lengths[j]
    {
      assert entries[j] == entries[..5][j];
    }
    GetFirst(entries, k, entries[k].key);
  }

  /** The required fields are where the receiving side looks for them. */
  lemma CreateEntriesRequired(file: File, owner: string, values: CreateForm)
    ensures Get(CreateEntries(file, owner, values), KEY_FILE) == Some(FileValue(file))
    ensures GetText(CreateEntries(file, owner, values), KEY_OWNER) == Some(owner)
    ensures GetText(CreateEntries(file, owner, values), KEY_EMAIL) == Some(values.signerEmail)
    ensures GetText(CreateEntries(file, owner, values), KEY_FIRST) == Some(values.signerFirstName)
    ensures GetText(CreateEntries(file, owner, values), KEY_LAST) == Some(values.signerLastName)
  {
    var entries := CreateEntries(file, owner, values);
    CreateEntriesPrefix(file, owner, values);
    assert entries[0] == entries[..5][0];
    assert entries[1] == entries[..5][1];
    assert entries[2] == entries[..5][2];
    assert entries[3] == entries[..5][3];
    assert entries[4] == entries[..5][4];
    RequiredEntry(file, owner, values, 0);
    RequiredEntry(file, owner, values, 1);
    RequiredEntry(file, owner, values, 2);
    RequiredEntry(file, owner, values, 3);
    RequiredEntry(file, owner, values, 4);
  }

  /** The signer's address is in the body exactly when one was typed. */
  lemma CreateEntriesSigner(file: File, owner: string, values: CreateForm)
    ensures GetText(CreateEntries(file, owner, values), KEY_SIGNER) ==
      if Truthy(values.signerAddress) then values.signerAddress else None
  {
    var entries := CreateEntries(file, owner, values);
    CreateEntriesPrefix(file, owner, values);
    assert |KEY_FILE| == 4 && |KEY_OWNER| == 12 && |KEY_EMAIL| == 11;
    assert |KEY_FIRST| == 15 && |KEY_LAST| == 14 && |KEY_SIGNER| == 13;
    assert forall j :: 0 <= j < 5 ==> entries[j] == entries[..5][j];
    if Truthy(values.signerAddress) {
      GetFirst(entries, 5, KEY_SIGNER);
    } else {
      assert KEY_SIGNER !in Keys(entries);
    }
  }

  /** The body carries exactly the chosen file, the connected wallet as owner,
      the signer's details, and the signer's address only when one was typed. */
  lemma CreateEntriesRoundTrip(file: File, owner: string, values: CreateForm)
    ensures ReadCreateRequest(CreateEntries(file, owner, values)) ==
      Some(CreateRequest(file, owner, values.signerEmail, values.signerFirstName, values.signerLastName,
                         if Truthy(values.signerAddress) then values.signerAddress else None))
  {
    CreateEntriesRequired(file, owner, values);
    CreateEntriesSigner(file, owner, values);
  }

  /** How a submission ended: blocked by the schema, ignored by the guard,
      navigated to the new document, or alerted. */
  datatype SubmitOutcome = Invalid(failing: set<Field>) | Ignored | Navigated(path: string) | Alerted(message: string)

  datatype SubmitRun = SubmitRun(request: Option<seq<Entry>>, outcome: SubmitOutcome)

  /** `form.handleSubmit(onSubmit)` (app/create/page.tsx:59-87): the schema runs
      first; `onSubmit` returns at once without a file or a connected wallet. */
  function HandleSubmit(values: CreateForm, isEmail: string -> bool, file: Option<File>, address: Option<string>,
                        post: seq<Entry> -> Result<Option<string>, string>): (run: SubmitRun)
    ensures run.request.Some? <==> Validate(values, isEmail) == {} && file.Some? && Truthy(address)
    ensures Validate(values, isEmail) != {} ==> run.outcome == Invalid(Validate(values, isEmail))
    ensures Validate(values, isEmail) == {} && (file.None? || !Truthy(address)) ==> run.outcome == Ignored
    ensures run.request.Some? ==>
      ReadCreateRequest(run.request.value).Some?
      && ReadCreateRequest(run.request.value).value.file == file.value
      && ReadCreateRequest(run.request.value).value.ownerAddress == address.value
    ensures run.request.Some? && post(run.request.value).Ok? ==>
      run.outcome == Navigated(DOCUMENTS_PATH + Interpolate(post(run.request.value).value))
    ensures run.request.Some? && post(run.request.value).Err? ==> run.outcome == Alerted(CREATE_FAILED)
  {
    var failing := Validate(values, isEmail);
    if failing != {} then SubmitRun(None, Invalid(failing))
    else if file.None? || !Truthy(address) then SubmitRun(None, Ignored)
    else
      var entries := CreateEntries(file.value, address.value, values);
      CreateEntriesRoundTrip(file.value, address.value, values);
      match post(entries)
      case Ok(id) => SubmitRun(Some(entries), Navigated(DOCUMENTS_PATH + Interpolate(id)))
      case Err(_) => SubmitRun(Some(entries), Alerted(CREATE_FAILED))
  }
}

=== FILE: dashboard.dfy ===
/** The owner's dashboard (app/dashboard/page.tsx): when to fetch the
    document list, what a fetch does to the list and to the session (a 401
    logs out), and the case-insensitive file-name search. */
module Dashboard {
  import opened Base
  import opened Text
  import opened Cookies
  import opened AuthSession

  /** The five document states (app/dashboard/page.tsx:17). */
  datatype Status = Pending | Sent | Signed | Cancelled | Expired

  function StatusName(s: Status): string {
    match s
    case Pending => "pending"
    case Sent => "sent"
    case Signed => "signed"
    case Cancelled => "cancelled"
    case Expired => "expired"
  }

  /** Reads a status as the server spells it; any other string is not a status. */
  function ParseStatus(t: string): (r: Option<Status>)
    ensures r.Some? ==> StatusName(r.value) == t
  {
    if t == "pending" then Some(Pending)
    else if t == "sent" then Some(Sent)
    else if t == "signed" then Some(Signed)
    else if t == "cancelled" then Some(Cancelled)
    else if t == "expired" then Some(Expired)
    else None
  }

  /** The spellings are exactly the five statuses, each read back as itself. */
  lemma StatusRoundTrip(s: Status)
    ensures ParseStatus(StatusName(s)) == Some(s)
  {
  }

  datatype Document = Document(id: string, fileName: string, status: Status, signerEmail: string)

  // ---------------------------------------------------------------- search

  /** `doc.fileName.toLowerCase().includes(search.toLowerCase())`. */
  predicate Matches(doc: Document, search: string) {
    Contains(LowerAscii(doc.fileName), LowerAscii(search))
  }

  /** `a` is `b` with some elements left out and the rest in order. */
  predicate Sublist<T(==)>(a: seq<T>, b: seq<T>)
    decreases |b|
  {
    if |a| == 0 then true
    else if |b| == 0 then false
    else if a[0] == b[0] then Sublist(a[1..], b[1..])
    else Sublist(a, b[1..])
  }

  /** `documents.filter(doc => Matches(doc, search))`. */
  function Filter(docs: seq<Document>, search: string): (r: seq<Document>)
    ensures |r| <= |docs|
    ensures forall d :: d in r <==> d in docs && Matches(d, search)
    ensures Sublist(r, docs)
    decreases |docs|
  {
    if |docs| == 0 then []
    else if Matches(docs[0], search) then
      var rest := Filter(docs[1..], search);
      assert ([docs[0]] + rest)[1..] == rest;
      [docs[0]] + rest
    else Filter(docs[1..], search)
  }

  /** `filteredDocuments` (app/dashboard/page.tsx:55-57): a missing list is empty. */
  function Visible(documents: Option<seq<Document>>, search: string): (r: seq<Document>)
    ensures documents.None? ==> r == []
    ensures documents.Some? ==> Sublist(r, documents.value)
    ensures forall d :: d in r <==> documents.Some? && d in documents.value && Matches(d, search)
  {
    Filter(if documents.Some? then documents.value else [], search)
  }

  /** An empty search keeps every document. */
  lemma {:induction false} EmptySearchKeepsAll(docs: seq<Document>)
    ensures Filter(docs, "") == docs
    decreases |docs|
  {
    if |docs| > 0 {
      assert OccursAt(LowerAscii(docs[0].fileName), LowerAscii(""), 0);
      EmptySearchKeepsAll(docs[1..]);
      assert docs == [docs[0]] + docs[1..];
    }
  }

  /** Narrowing the search: when the lowercased old search occurs in the
      lowercased new one, filtering the old result by the new search is the same
      as filtering everything by it. */
  lemma {:induction false} NarrowingSearch(docs: seq<Document>, wide: string, narrow: string)
    requires Contains(LowerAscii(narrow), LowerAscii(wide))
    ensures Filter(Filter(docs, wide), narrow) == Filter(docs, narrow)
    decreases |docs|
  {
    if |docs| > 0 {
      var d := docs[0];
      if Matches(d, narrow) {
        ContainsTransitive(LowerAscii(d.fileName), LowerAscii(narrow), LowerAscii(wide));
        assert Filter(docs, wide) == [d] + Filter(docs[1..], wide);
        assert (Filter(docs, wide))[1..] == Filter(docs[1..], wide);
      }
      NarrowingSearch(docs[1..], wide, narrow);
    }
  }

  /** Typing more characters after the search can only drop documents: the new
      result is a sublist of the old one. */
  lemma ExtendingSearchShrinks(docs: seq<Document>, search: string, more: string)
    ensures Filter(Filter(docs, search), search + more) == Filter(docs, search + more)
    ensures Sublist(Filter(docs, search + more), Filter(docs, search))
  {
    LowerAsciiAppend(search, more);
    assert StartsWith(LowerAscii(search + more), LowerAscii(search));
    ContainsPrefix(LowerAscii(search + more), LowerAscii(search));
    NarrowingSearch(docs, search, search + more);
  }

  // ---------------------------------------------------------------- fetching

  /** What the effect (app/dashboard/page.tsx:31-37) decides. */
  datatype Decision = FetchList | StopLoading | Wait

  function Effect(token: Option<string>, authLoading: bool, isAuthenticated: bool): (d: Decision)
    ensures d == FetchList <==> Truthy(token)
    ensures d == StopLoading <==> !Truthy(token) && !authLoading && !isAuthenticated
  {
    if Truthy(token) then FetchList
    else if !authLoading && !isAuthenticated then StopLoading
    else Wait
  }

  /** Once the session has settled the dashboard never waits: it either fetches
      or shows that sign-in is needed. */
  lemma SettledSessionDecides(s: Session)
    requires !s.isLoading
    ensures Effect(s.token, s.isLoading, IsAuthenticated(s)) != Wait
  {
  }

  /** The list request: `Authorization: Bearer ${token}` set by the page, then
      passed through the interceptor. */
  function ListRequest(token: string, cookie: string): (r: RequestConfig)
    ensures r.headers.Some? && r.headers.value.Keys == {AUTHORIZATION}
    // the interceptor's cookie token, when there is one, replaces the page's
    ensures r.headers.value[AUTHORIZATION] ==
      BEARER + if Truthy(ReadAuthToken(cookie)) then ReadAuthToken(cookie).value else token
  {
    Decorate(RequestConfig("/documents", Some(map[AUTHORIZATION := BEARER + token])), cookie)
  }

  /** Right after mounting, the list request carries the session's token, whether
      it came from the cookie or was migrated from localStorage. */
  lemma ListRequestCarriesSessionToken(jar: seq<Cookie>, local: Option<string>, now: int)
    requires WellFormed(jar)
    requires Truthy(Init(jar, local, now).token)
    requires local.Some? ==> CookieSafe(local.value)
    ensures var s := Init(jar, local, now);
      var headers := ListRequest(s.token.value, Header(s.jar, now)).headers;
      headers.Some? && AUTHORIZATION in headers.value && headers.value[AUTHORIZATION] == BEARER + s.token.value
  {
    if !Truthy(CookieToken(jar, now)) {
      InitMigrationSynchronises(jar, local, now, now);
    }
  }

  /** How `GET /documents` ended: a body that may be missing, or a rejection
      that may carry an HTTP status. */
  datatype ListReply = Listed(data: Option<seq<Document>>) | Failed(status: Option<int>)

  const UNAUTHORIZED := 401

  datatype DashboardState = DashboardState(documents: Option<seq<Document>>, loading: bool, search: string)

  /** `fetchDocuments` (app/dashboard/page.tsx:39-53): a body replaces the list
      (a missing one empties it); a 401 logs the session out; any other failure
      keeps both; loading ends in every case. */
  function FetchDocuments(st: DashboardState, session: Session, reply: ListReply, now: nat): (r: (DashboardState, Session))
    ensures !r.0.loading && r.0.search == st.search
    ensures reply.Listed? ==> r.0.documents == Some(if reply.data.Some? then reply.data.value else []) && r.1 == session
    ensures reply.Failed? ==> r.0.documents == st.documents
    ensures reply.Failed? && reply.status == Some(UNAUTHORIZED) ==> r.1 == Logout(session, now)
    ensures reply.Failed? && reply.status != Some(UNAUTHORIZED) ==> r.1 == session
  {
    match reply
    case Listed(data) => (st.(documents := Some(if data.Some? then data.value else []), loading := false), session)
    case Failed(status) =>
      var session' := if status == Some(UNAUTHORIZED) then Logout(session, now) else session;
      (st.(loading := false), session')
  }

  /** A 401 ends the session for good: the stored token is gone from state,
      cookie and localStorage, and the next effect run does not fetch again. */
  lemma UnauthorizedStopsFetching(st: DashboardState, session: Session, now: nat)
    ensures var (_, s) := FetchDocuments(st, session, Failed(Some(UNAUTHORIZED)), now);
      !IsAuthenticated(s) && s.local == None && Lookup(s.jar, AUTH_COOKIE) == None
      && Effect(s.token, s.isLoading, IsAuthenticated(s)) != FetchList
  {
  }
}

=== FILE: document_details.dfy ===
/** The document details page (app/documents/page.tsx): the fetch gated on
    both a session token and an `id` query parameter, the spinner / "not found"
    / details choice, and the URL the download buttons and the viewer open.

    `NEXT_PUBLIC_API_URL` is the parameter `apiUrl` (missing when unset). */
module DocumentDetails {
  import opened Base
  import opened Text
  import opened AuthSession

  const API_SUFFIX := "/api/v1"
  const HTTP := "http"

  // ---------------------------------------------------------------- blob URL

  /** The expression each of the page's three URL sites evaluates
      (app/documents/page.tsx:71-73, 117-119, 150-152): an `http…` blob URL is
      used as is; otherwise the API base, without its first `/api/v1`, is put in
      front (a missing base is written `undefined`). */
  function ResolveBlobUrl(apiUrl: Option<string>, blobUrl: string): (url: string)
    ensures EndsWith(url, blobUrl)
    ensures StartsWith(blobUrl, HTTP) ==> url == blobUrl
    ensures !StartsWith(blobUrl, HTTP) ==> |url| >= |blobUrl|
    ensures apiUrl.None? && !StartsWith(blobUrl, HTTP) ==> url == Interpolate(None) + blobUrl
  {
    if StartsWith(blobUrl, HTTP) then blobUrl
    else
      var origin := Interpolate(if apiUrl.Some? then Some(ReplaceFirst(apiUrl.value, API_SUFFIX, "")) else None);
      assert (origin + blobUrl)[|origin + blobUrl| - |blobUrl|..] == blobUrl;
      origin + blobUrl
  }

  /** An API base without `/api/v1` is put in front of a relative blob URL unchanged. */
  lemma KeepsBaseWithoutSuffix(base: string, blobUrl: string)
    requires !Contains(base, API_SUFFIX) && !StartsWith(blobUrl, HTTP)
    ensures ResolveBlobUrl(Some(base), blobUrl) == base + blobUrl
  {
  }

  /** No occurrence of `/api/v1` straddles the end of a prefix: the only `/`
      after its first character is followed by `v`, not `a`. */
  lemma NoStraddlingSuffix(origin: string, rest: string, j: nat)
    requires j < |origin| < j + |API_SUFFIX|
    ensures !OccursAt(origin + API_SUFFIX + rest, API_SUFFIX, j)
  {
    var s := origin + API_SUFFIX + rest;
    var k := |origin| - j;
    assert API_SUFFIX == ['/', 'a', 'p', 'i', '/', 'v', '1'];
    assert s[|origin|] == '/' && s[|origin| + 1] == 'a';
    if j + |API_SUFFIX| <= |s| {
      if k == 4 {
        assert s[j..j + |API_SUFFIX|][5] != API_SUFFIX[5];
      } else {
        assert s[j..j + |API_SUFFIX|][k] != API_SUFFIX[k];
      }
    }
  }

  /** With the API base `origin + "/api/v1" + rest` and an origin that does not
      itself contain `/api/v1`, a relative blob URL resolves to
      `origin + rest + blobUrl`. */
  lemma StripsApiSuffix(origin: string, rest: string, blobUrl: string)
    requires !Contains(origin, API_SUFFIX) && !StartsWith(blobUrl, HTTP)
    ensures ResolveBlobUrl(Some(origin + API_SUFFIX + rest), blobUrl) == origin + rest + blobUrl
  {
    FirstSuffixRemoved(origin, rest);
  }

  /** The `/api/v1` right after an origin without one is the first occurrence. */
  lemma FirstSuffixRemoved(origin: string, rest: string)
    requires !Contains(origin, API_SUFFIX)
    ensures ReplaceFirst(origin + API_SUFFIX + rest, API_SUFFIX, "") == origin + rest
  {
    var s := origin + API_SUFFIX + rest;
    assert s[|origin|..|origin| + |API_SUFFIX|] == API_SUFFIX;
    forall j | 0 <= j < |origin|
      ensures !OccursAt(s, API_SUFFIX, j)
    {
      if j + |API_SUFFIX| <= |origin| {
        assert s[j..j + |API_SUFFIX|] == origin[j..j + |API_SUFFIX|];
        assert !OccursAt(origin, API_SUFFIX, j);
      } else {
        NoStraddlingSuffix(origin, rest, j);
      }
    }
    assert FirstOccurrence(s, API_SUFFIX, |origin|);
    assert IndexOf(s, API_SUFFIX) == Some(|origin|);
    assert s[..|origin|] == origin;
    assert s[|origin| + |API_SUFFIX|..] == rest;
  }

  /** The first `/api/v1` of an `http…` base lies after its scheme. */
  lemma SuffixAfterScheme(base: string, i: nat)
    requires StartsWith(base, HTTP) && OccursAt(base, API_SUFFIX, i)
    ensures i >= |HTTP|
  {
    assert base[i] == base[i..i + |API_SUFFIX|][0] == '/';
    assert forall k :: 0 <= k < |HTTP| ==> base[k] == HTTP[k] != '/';
  }

  /** With an `http…` API base every resolved URL is absolute, so resolving it
      again changes nothing. */
  lemma ResolveIsIdempotent(apiUrl: Option<string>, blobUrl: string)
    requires apiUrl.Some? && StartsWith(apiUrl.value, HTTP)
    ensures StartsWith(ResolveBlobUrl(apiUrl, blobUrl), HTTP)
    ensures ResolveBlobUrl(apiUrl, ResolveBlobUrl(apiUrl, blobUrl)) == ResolveBlobUrl(apiUrl, blobUrl)
  {
    if !StartsWith(blobUrl, HTTP) {
      var base := apiUrl.value;
      var stripped := ReplaceFirst(base, API_SUFFIX, "");
      if Contains(base, API_SUFFIX) {
        var i :| FirstOccurrence(base, API_SUFFIX, i) && stripped == base[..i] + "" + base[i + |API_SUFFIX|..];
        SuffixAfterScheme(base, i);
        assert stripped[..4] == base[..4];
      }
      assert StartsWith(stripped, HTTP);
      assert (stripped + blobUrl)[..4] == stripped[..4];
    }
  }

  // ---------------------------------------------------------------- fetching

  /** What the effect (app/documents/page.tsx:29-35) decides. */
  datatype Decision = FetchDocument(id: string) | StopLoading | Wait

  function Effect(token: Option<string>, id: Option<string>, authLoading: bool, isAuthenticated: bool): (d: Decision)
    ensures d.FetchDocument? <==> Truthy(token) && Truthy(id)
    ensures d.FetchDocument? ==> d.id == id.value
    ensures d == StopLoading <==> !(Truthy(token) && Truthy(id)) && !authLoading && !isAuthenticated
  {
    if Truthy(token) && Truthy(id) then FetchDocument(id.value)
    else if !authLoading && !isAuthenticated then StopLoading
    else Wait
  }

  /** The fields of the fetched document the page reads. */
  datatype DocumentInfo = DocumentInfo(fileName: string, blobUrl: string)

  datatype DetailsState = DetailsState(document: Option<DocumentInfo>, loading: bool)

  function Initial(): DetailsState {
    DetailsState(None, true)
  }

  /** `fetchDocument` (app/documents/page.tsx:37-48): an answer replaces the
      document (its body may be null); a failure keeps it; loading ends. */
  function FetchDocumentReply(st: DetailsState, reply: Result<Option<DocumentInfo>, string>): (r: DetailsState)
    ensures !r.loading
    ensures reply.Ok? ==> r.document == reply.value
    ensures reply.Err? ==> r.document == st.document
  {
    match reply
    case Ok(data) => DetailsState(data, false)
    case Err(_) => st.(loading := false)
  }

  /** The effect's outcome on the page state. */
  function ApplyEffect(st: DetailsState, d: Decision, fetch: string -> Result<Option<DocumentInfo>, string>): DetailsState {
    match d
    case FetchDocument(id) => FetchDocumentReply(st, fetch(id))
    case StopLoading => st.(loading := false)
    case Wait => st
  }

  /** What the page renders (app/documents/page.tsx:50-51 and below); the
      download buttons and the viewer all open the same resolved URL. */
  datatype DetailsView = Spinner | NotFound | Details(fileName: string, url: string)

  function View(st: DetailsState, authLoading: bool, apiUrl: Option<string>): (v: DetailsView)
    ensures v == Spinner <==> authLoading || st.loading
    ensures v.Details? <==> !authLoading && !st.loading && st.document.Some?
    ensures v.Details? ==>
      v.fileName == st.document.value.fileName && v.url == ResolveBlobUrl(apiUrl, st.document.value.blobUrl)
  {
    if authLoading || st.loading then Spinner
    else if st.document.None? then NotFound
    else Details(st.document.value.fileName, ResolveBlobUrl(apiUrl, st.document.value.blobUrl))
  }

  /** The page state after the effect's first two runs. `useAuth` starts with no
      token and not loading (hooks/useAuth.ts:29-30), so the first run sees a
      signed-out, settled session and stops loading; the second sees the session
      the mount effect of `useAuth` settled on. */
  function Mounted(s: Session, id: Option<string>,
                   fetch: string -> Result<Option<DocumentInfo>, string>): (st: DetailsState)
    ensures !st.loading
    // a document is on display only when a token and an `id` fetched it
    ensures st.document.Some? <==>
      Truthy(s.token) && Truthy(id) && fetch(id.value).Ok? && fetch(id.value).value.Some?
    ensures st.document.Some? ==> st.document == fetch(id.value).value
  {
    var first := ApplyEffect(Initial(), Effect(None, id, false, false), fetch);
    ApplyEffect(first, Effect(s.token, id, s.isLoading, IsAuthenticated(s)), fetch)
  }

  /** Without `id` nothing is ever fetched, and since the first run already
      stopped loading, a settled session sees "not found", with or without a token. */
  lemma MissingIdShowsNotFound(s: Session, id: Option<string>, apiUrl: Option<string>,
                               fetch: string -> Result<Option<DocumentInfo>, string>)
    requires !Truthy(id)
    ensures View(Mounted(s, id, fetch), s.isLoading, apiUrl) == if s.isLoading then Spinner else NotFound
  {
  }

  /** A signed-out visitor sees "not found", and a failed fetch also ends in
      "not found": the page never shows an error of its own. */
  lemma FailuresShowNotFound(s: Session, id: Option<string>, apiUrl: Option<string>,
                             fetch: string -> Result<Option<DocumentInfo>, string>)
    requires !s.isLoading
    requires !Truthy(s.token) || (Truthy(id) && fetch(id.value).Err?)
    ensures View(Mounted(s, id, fetch), s.isLoading, apiUrl) == NotFound
  {
  }

  /** With a token and an `id` whose fetch answers with a document, the page
      shows that document under its resolved URL. */
  lemma FetchedDocumentShows(s: Session, id: Option<string>, apiUrl: Option<string>,
                             fetch: string -> Result<Option<DocumentInfo>, string>, doc: DocumentInfo)
    requires !s.isLoading && Truthy(s.token) && Truthy(id) && fetch(id.value) == Ok(Some(doc))
    ensures View(Mounted(s, id, fetch), s.isLoading, apiUrl) == Details(doc.fileName, ResolveBlobUrl(apiUrl, doc.blobUrl))
  {
  }
}

=== FILE: hex_codec.dfy ===
/** Lowercase hexadecimal rendering of a byte array, as the verify page builds
    it: each byte through `b.toString(16).padStart(2, '0')`, then `join('')`
    (app/verify/page.tsx:40-41). `Unhex` is the decoder the encoding is proved
    against. */
module HexCodec {
  import opened Base
  import opened Text

  /** The digit `Number.prototype.toString(16)` writes for `d`: `0-9`, then `a-f`. */
  function HexDigit(d: int): char
    requires 0 <= d < 16
  {
    if d < 10 then ('0' as int + d) as char else ('a' as int + d - 10) as char
  }

  predicate IsLowerHexChar(c: char) {
    '0' <= c <= '9' || 'a' <= c <= 'f'
  }

  /** A character of the class `[a-fA-F0-9]`. */
  predicate IsHexChar(c: char) {
    IsLowerHexChar(c) || 'A' <= c <= 'F'
  }

  /** The value of a hexadecimal digit of either case. */
  function HexValue(c: char): (v: int)
    requires IsHexChar(c)
    ensures 0 <= v < 16
    ensures HexDigit(v) == LowerChar(c)
  {
    if '0' <= c <= '9' then c as int - '0' as int
    else if 'a' <= c <= 'f' then c as int - 'a' as int + 10
    else c as int - 'A' as int + 10
  }

  /** `n.toString(16)` for a non-negative integer: no leading zeros, lowercase. */
  function ToBase16(n: nat): (r: string)
    ensures |r| >= 1
    ensures forall i :: 0 <= i < |r| ==> IsLowerHexChar(r[i])
    decreases n
  {
    if n < 16 then [HexDigit(n)] else ToBase16(n / 16) + [HexDigit(n % 16)]
  }

  /** `s.padStart(width, fill)` with a one-character fill. */
  function PadStart(s: string, width: nat, fill: char): (r: string)
    ensures |r| == if |s| < width then width else |s|
    ensures EndsWith(r, s)
    ensures forall i :: 0 <= i < |r| - |s| ==> r[i] == fill
  {
    if |s| >= width then s else seq(width - |s|, _ => fill) + s
  }

  /** One byte as the verify page renders it: always two digits, high nibble first. */
  function ByteToHex(b: byte): (r: string)
    ensures r == [HexDigit(b / 16), HexDigit(b % 16)]
  {
    if b < 16 then
      assert ToBase16(b) == [HexDigit(b)];
      PadStart(ToBase16(b), 2, '0')
    else
      assert ToBase16(b / 16) == [HexDigit(b / 16)];
      PadStart(ToBase16(b), 2, '0')
  }

  /** `Array.from(bytes).map(b => b.toString(16).padStart(2, '0')).join('')`. */
  function Hex(bytes: seq<byte>): (r: string)
    ensures |r| == 2 * |bytes|
    decreases |bytes|
  {
    if |bytes| == 0 then "" else ByteToHex(bytes[0]) + Hex(bytes[1..])
  }

  /** Byte `i` is rendered at positions `2i` and `2i + 1`: high nibble, then low
      nibble, so a byte below 16 gets a leading `'0'`. */
  lemma {:induction false} HexDigitsAt(bytes: seq<byte>, i: nat)
    requires i < |bytes|
    ensures Hex(bytes)[2 * i] == HexDigit(bytes[i] / 16)
    ensures Hex(bytes)[2 * i + 1] == HexDigit(bytes[i] % 16)
    ensures bytes[i] < 16 ==> Hex(bytes)[2 * i] == '0'
    decreases i
  {
    if i > 0 {
      HexDigitsAt(bytes[1..], i - 1);
      assert Hex(bytes) == ByteToHex(bytes[0]) + Hex(bytes[1..]);
    }
  }

  /** Every character of the rendering is one of `0-9a-f`. */
  lemma HexIsLowercaseDigits(bytes: seq<byte>)
    ensures forall k :: 0 <= k < |Hex(bytes)| ==> IsLowerHexChar(Hex(bytes)[k])
  {
    forall k | 0 <= k < |Hex(bytes)|
      ensures IsLowerHexChar(Hex(bytes)[k])
    {
      HexDigitsAt(bytes, k / 2);
    }
  }

  /** Reads pairs of hexadecimal digits (either case) back into bytes; fails on
      an odd length or a non-hex character. */
  function Unhex(s: string): (r: Option<seq<byte>>)
    ensures r.Some? <==> |s| % 2 == 0 && forall i :: 0 <= i < |s| ==> IsHexChar(s[i])
    ensures r.Some? ==> 2 * |r.value| == |s|
    decreases |s|
  {
    if |s| == 0 then Some([])
    else if |s| == 1 || !IsHexChar(s[0]) || !IsHexChar(s[1]) then None
    else
      assert forall i :: 2 <= i < |s| ==> s[i] == s[2..][i - 2];
      match Unhex(s[2..])
      case None => None
      case Some(rest) => Some([HexValue(s[0]) * 16 + HexValue(s[1])] + rest)
  }

  /** A digit written by `HexDigit` reads back as the same value. */
  lemma DigitRoundTrip(d: int)
    requires 0 <= d < 16
    ensures IsHexChar(HexDigit(d)) && HexValue(HexDigit(d)) == d
  {
  }

  /** Decoding the rendering gives back the bytes. */
  lemma {:induction false} UnhexOfHex(bytes: seq<byte>)
    ensures Unhex(Hex(bytes)) == Some(bytes)
    decreases |bytes|
  {
    if |bytes| > 0 {
      var b := bytes[0];
      var hi, lo := HexDigit(b / 16), HexDigit(b % 16);
      var tail := Hex(bytes[1..]);
      var s := [hi, lo] + tail;
      assert Hex(bytes) == s;
      UnhexOfHex(bytes[1..]);
      DigitRoundTrip(b / 16);
      DigitRoundTrip(b % 16);
      assert s[2..] == tail;
      assert Unhex(s) == Some([HexValue(hi) * 16 + HexValue(lo)] + bytes[1..]);
      assert bytes == [b] + bytes[1..];
    }
  }

  /** Encoding what was decoded gives the input back, lowercased. */
  lemma {:induction false} HexOfUnhex(s: string)
    requires Unhex(s).Some?
    ensures Hex(Unhex(s).value) == LowerAscii(s)
    decreases |s|
  {
    if |s| > 0 {
      var rest := Unhex(s[2..]).value;
      HexOfUnhex(s[2..]);
      var b: byte := HexValue(s[0]) * 16 + HexValue(s[1]);
      assert Unhex(s).value == [b] + rest;
      assert b / 16 == HexValue(s[0]) && b % 16 == HexValue(s[1]);
      assert ([b] + rest)[1..] == rest;
      assert LowerAscii(s) == [LowerChar(s[0]), LowerChar(s[1])] + LowerAscii(s[2..]);
    }
  }

  /** Distinct byte arrays never share a rendering. */
  lemma HexInjective(a: seq<byte>, b: seq<byte>)
    requires Hex(a) == Hex(b)
    ensures a == b
  {
    UnhexOfHex(a);
    UnhexOfHex(b);
  }
}

=== FILE: sign_page.dfy ===
/** The signing page reached through an invitation link (app/sign/page.tsx):
    the `token` query parameter gates the document fetch, the form schema, and
    `onSign`, which has the wallet sign a message naming the document and posts
    the signature with the signer's details.

    The document fetch, the wallet and `POST /sign/<token>` are parameters;
    zod's `.email()` check is the parameter `isEmail`. */
module SignPage {
  import opened Base
  import opened Text
  import CreatePage

  const SIGN_MESSAGE_PREFIX := "I confirm that I am signing document: "
  const NO_TOKEN := "No token provided"
  const LOAD_FAILED := "Failed to load document. It may have expired or is invalid."
  const SIGN_FAILED := "Failed to sign document. Please try again."
  const SIGN_PATH := "/sign/"

  /** The fields of the fetched document the page reads; the answer is untyped,
      so each may be missing or `null`. */
  datatype SignDocument = SignDocument(fileName: JsonString, signerEmail: JsonString)

  /** The values `signSchema` checks (app/sign/page.tsx:16-20). */
  datatype SignForm = SignForm(signerFirstName: string, signerLastName: string, signerEmail: string)

  datatype SignState = SignState(document: Option<SignDocument>, loading: bool, signing: bool,
                                 success: bool, error: Option<string>)

  /** The fields `signSchema` rejects: the same two-character rule for names as
      the creation form, and an email `isEmail` refuses. */
  function ValidateSign(values: SignForm, isEmail: string -> bool): (failing: set<CreatePage.Field>)
    ensures CreatePage.SignerAddress !in failing
    ensures CreatePage.SignerFirstName in failing <==> |values.signerFirstName| < CreatePage.MIN_NAME
    ensures CreatePage.SignerLastName in failing <==> |values.signerLastName| < CreatePage.MIN_NAME
    ensures CreatePage.SignerEmail in failing <==> !isEmail(values.signerEmail)
  {
    (if isEmail(values.signerEmail) then {} else {CreatePage.SignerEmail})
    + (if CreatePage.NameAllowed(values.signerFirstName) then {} else {CreatePage.SignerFirstName})
    + (if CreatePage.NameAllowed(values.signerLastName) then {} else {CreatePage.SignerLastName})
  }

  /** Signing accepts exactly the signer details that creating accepted when no
      signer address was given. */
  lemma SchemasAgree(values: SignForm, isEmail: string -> bool)
    ensures ValidateSign(values, isEmail) ==
      CreatePage.Validate(CreatePage.CreateForm(values.signerEmail, values.signerFirstName,
                                                values.signerLastName, Some("")), isEmail)
  {
  }

  // ---------------------------------------------------------------- mounting

  /** The first render: a spinner, no document, no error. */
  function Initial(): SignState {
    SignState(None, true, false, false, None)
  }

  datatype MountRun = MountRun(state: SignState, fetched: Option<string>)

  /** The token effect and `fetchDocument` (app/sign/page.tsx:43-64): without a
      token nothing is fetched and the page shows "No token provided". A `null`
      body is stored, and reading its `signerEmail` for the form reset then
      throws, so it ends like a failed fetch. */
  function Mount(token: Option<string>, fetch: string -> Result<Option<SignDocument>, string>): (run: MountRun)
    ensures !run.state.loading && !run.state.signing && !run.state.success
    ensures run.fetched.Some? <==> Truthy(token)
    ensures !Truthy(token) ==> run.state.error == Some(NO_TOKEN) && run.state.document.None?
    ensures Truthy(token) ==>
      run.fetched == token
      && (run.state.document.Some? <==> fetch(token.value).Ok? && fetch(token.value).value.Some?)
      && (run.state.document.Some? ==> run.state.document == fetch(token.value).value)
      && (run.state.error.Some? <==> run.state.document.None?)
      && (run.state.error.Some? ==> run.state.error.value == LOAD_FAILED)
  {
    var st := Initial();
    if Truthy(token) then
      match fetch(token.value)
      case Ok(Some(doc)) => MountRun(st.(document := Some(doc), loading := false), token)
      case Ok(None) => MountRun(st.(error := Some(LOAD_FAILED), loading := false), token)
      case Err(_) => MountRun(st.(error := Some(LOAD_FAILED), loading := false), token)
    else MountRun(st.(loading := false, error := Some(NO_TOKEN)), None)
  }

  /** What the page renders (app/sign/page.tsx:93-95 and below): the spinner,
      an error (which replaces the form), the success card, or the form. */
  datatype SignView = Spinner | ErrorCard(message: string) | Signed | SignFormView

  function View(st: SignState): (v: SignView)
    ensures v == Spinner <==> st.loading
    ensures v.ErrorCard? <==> !st.loading && Truthy(st.error)
    ensures v.ErrorCard? ==> v.message == st.error.value
    ensures v == Signed <==> !st.loading && !Truthy(st.error) && st.success
  {
    if st.loading then Spinner
    else if Truthy(st.error) then ErrorCard(st.error.value)
    else if st.success then Signed
    else SignFormView
  }

  /** Without a token the page never reaches the form, whatever the fetch would do. */
  lemma NoTokenNoForm(token: Option<string>, fetch: string -> Result<Option<SignDocument>, string>)
    requires !Truthy(token)
    ensures View(Mount(token, fetch).state) == ErrorCard(NO_TOKEN)
  {
  }

  // ---------------------------------------------------------------- signing

  /** The message the wallet signs (app/sign/page.tsx:72). */
  function SignMessage(doc: SignDocument): (m: string)
    ensures StartsWith(m, SIGN_MESSAGE_PREFIX)
    ensures |m| == |SIGN_MESSAGE_PREFIX| + |InterpolateField(doc.fileName)|
  {
    SIGN_MESSAGE_PREFIX + InterpolateField(doc.fileName)
  }

  /** The file name a signed message names. */
  function NamedFile(message: string): (r: Option<string>)
    ensures r.Some? <==> StartsWith(message, SIGN_MESSAGE_PREFIX)
    ensures r.Some? ==> message == SIGN_MESSAGE_PREFIX + r.value
  {
    if StartsWith(message, SIGN_MESSAGE_PREFIX) then Some(message[|SIGN_MESSAGE_PREFIX|..]) else None
  }

  /** A signature is bound to one file name: the message gives the name back, so
      documents with different names are never signed with the same message. */
  lemma SignMessageNamesFile(a: SignDocument, b: SignDocument)
    ensures NamedFile(SignMessage(a)) == Some(InterpolateField(a.fileName))
    ensures SignMessage(a) == SignMessage(b) <==> InterpolateField(a.fileName) == InterpolateField(b.fileName)
  {
    assert SignMessage(a)[|SIGN_MESSAGE_PREFIX|..] == InterpolateField(a.fileName);
    assert SignMessage(b)[|SIGN_MESSAGE_PREFIX|..] == InterpolateField(b.fileName);
  }

  /** The JSON body of `POST /sign/<token>` (app/sign/page.tsx:75-82). */
  datatype SignPayload = SignPayload(signerAddress: string, signerEmail: string, signerFirstName: string,
                                     signerLastName: string, signature: string, message: string)

  /** `/sign/${token}` for a `string | null` query parameter. */
  function SignPathOf(token: Option<string>): string {
    SIGN_PATH + (if token.Some? then token.value else "null")
  }

  datatype SignRun = SignRun(state: SignState, signed: Option<string>, posted: Option<(string, SignPayload)>)

  /** `form.handleSubmit(onSign)` (app/sign/page.tsx:66-91): the schema runs
      first; without a wallet nothing happens; reading a missing document's
      name throws before the wallet is asked. */
  function OnSign(st: SignState, token: Option<string>, address: Option<string>, values: SignForm,
                  isEmail: string -> bool, wallet: string -> Result<string, string>,
                  post: (string, SignPayload) -> Result<(), string>): (run: SignRun)
    // blocked by the schema or the missing wallet: nothing changes, nothing is sent
    ensures ValidateSign(values, isEmail) != {} || !Truthy(address) ==> run == SignRun(st, None, None)
    // the wallet signs exactly the message naming the loaded document
    ensures run.signed.Some? <==>
      ValidateSign(values, isEmail) == {} && Truthy(address) && st.document.Some?
    ensures run.signed.Some? ==> run.signed.value == SignMessage(st.document.value)
    // the payload carries the signed message, its signature and the connected wallet
    ensures run.posted.Some? <==> run.signed.Some? && wallet(run.signed.value).Ok?
    ensures run.posted.Some? ==>
      var (path, payload) := run.posted.value;
      path == SignPathOf(token)
      && payload.message == run.signed.value
      && wallet(payload.message) == Ok(payload.signature)
      && payload.signerAddress == address.value
      && payload.signerEmail == values.signerEmail
      && payload.signerFirstName == values.signerFirstName
      && payload.signerLastName == values.signerLastName
    // the outcome: success only after the post succeeded; every other failure reads the same
    ensures ValidateSign(values, isEmail) == {} && Truthy(address) ==>
      !run.state.signing && run.state.document == st.document && run.state.loading == st.loading
      && (run.state.success <==> st.success || (run.posted.Some? && post(run.posted.value.0, run.posted.value.1).Ok?))
      && (run.state.error == if run.posted.Some? && post(run.posted.value.0, run.posted.value.1).Ok?
                             then None else Some(SIGN_FAILED))
  {
    if ValidateSign(values, isEmail) != {} || !Truthy(address) then SignRun(st, None, None)
    else
      var started := st.(signing := true, error := None);
      var failed := started.(signing := false, error := Some(SIGN_FAILED));
      match st.document
      case None => SignRun(failed, None, None)
      case Some(doc) =>
        var message := SignMessage(doc);
        match wallet(message)
        case Err(_) => SignRun(failed, Some(message), None)
        case Ok(signature) =>
          var payload := SignPayload(address.value, values.signerEmail, values.signerFirstName,
                                     values.signerLastName, signature, message);
          var path := SignPathOf(token);
          match post(path, payload)
          case Err(_) => SignRun(failed, Some(message), Some((path, payload)))
          case Ok(_) => SignRun(started.(signing := false, success := true), Some(message), Some((path, payload)))
  }

  /** Whatever the wallet and the server do, the page cannot show "signed" for a
      document other than the one it loaded: a success means the posted message
      names the loaded document's file. */
  lemma SuccessNamesLoadedDocument(st: SignState, token: Option<string>, address: Option<string>, values: SignForm,
                                   isEmail: string -> bool, wallet: string -> Result<string, string>,
                                   post: (string, SignPayload) -> Result<(), string>)
    requires !st.success
    requires OnSign(st, token, address, values, isEmail, wallet, post).state.success
    ensures st.document.Some?
    ensures var run := OnSign(st, token, address, values, isEmail, wallet, post);
      run.posted.Some? && NamedFile(run.posted.value.1.message) == Some(InterpolateField(st.document.value.fileName))
  {
    SignMessageNamesFile(st.document.value, st.document.value);
  }
}

=== FILE: text.dfy ===
/** The JavaScript string operations the client relies on: `startsWith`,
    `includes`, `indexOf`, `split`, `join`, `replace` with a string pattern,
    and ASCII `toLowerCase`. */
module Text {
  import opened Base

  predicate StartsWith(s: string, prefix: string) {
    |prefix| <= |s| && s[..|prefix|] == prefix
  }

  predicate EndsWith(s: string, suffix: string) {
    |suffix| <= |s| && s[|s| - |suffix|..] == suffix
  }

  /** `p` occurs in `s` starting at index `i`. */
  predicate OccursAt(s: string, p: string, i: int) {
    0 <= i && i + |p| <= |s| && s[i..i + |p|] == p
  }

  /** `s.includes(p)`. */
  predicate Contains(s: string, p: string) {
    exists i :: 0 <= i <= |s| && OccursAt(s, p, i)
  }

  /** `i` is the leftmost occurrence of `p` in `s`. */
  predicate FirstOccurrence(s: string, p: string, i: int) {
    OccursAt(s, p, i) && forall j :: 0 <= j < i ==> !OccursAt(s, p, j)
  }

  /** Leftmost occurrence of `p` in `s` at or after `from`. */
  function IndexOfFrom(s: string, p: string, from: nat): (r: Option<nat>)
    ensures r.Some? ==> from <= r.value && OccursAt(s, p, r.value)
    ensures r.Some? ==> forall j :: from <= j < r.value ==> !OccursAt(s, p, j)
    ensures r.None? ==> forall j :: from <= j ==> !OccursAt(s, p, j)
    decreases |s| - from
  {
    if from + |p| > |s| then None
    else if s[from..from + |p|] == p then Some(from)
    else IndexOfFrom(s, p, from + 1)
  }

  /** `s.indexOf(p)`, with -1 rendered as `None`. */
  function IndexOf(s: string, p: string): (r: Option<nat>)
    ensures r.Some? <==> Contains(s, p)
    ensures r.Some? ==> FirstOccurrence(s, p, r.value)
  {
    IndexOfFrom(s, p, 0)
  }

  /** `parts.join(sep)`. */
  function Join(parts: seq<string>, sep: string): string
    decreases |parts|
  {
    if |parts| == 0 then ""
    else if |parts| == 1 then parts[0]
    else parts[0] + sep + Join(parts[1..], sep)
  }

  /** `s.split(sep)` for a non-empty separator: cut at every leftmost,
      non-overlapping occurrence; `"".split(sep)` is `[""]`. */
  function Split(s: string, sep: string): (parts: seq<string>)
    requires |sep| > 0
    ensures |parts| >= 1
    ensures Join(parts, sep) == s
    decreases |s|
  {
    match IndexOf(s, sep)
    case None => [s]
    case Some(i) =>
      var rest := Split(s[i + |sep|..], sep);
      assert s == s[..i] + sep + s[i + |sep|..];
      assert ([s[..i]] + rest)[1..] == rest;
      [s[..i]] + rest
  }

  /** `s.replace(pattern, replacement)` with a string pattern: only the first
      occurrence is replaced. */
  function ReplaceFirst(s: string, pattern: string, replacement: string): (r: string)
    ensures !Contains(s, pattern) ==> r == s
    ensures Contains(s, pattern) ==>
      exists i :: FirstOccurrence(s, pattern, i) && r == s[..i] + replacement + s[i + |pattern|..]
  {
    match IndexOf(s, pattern)
    case None => s
    case Some(i) => s[..i] + replacement + s[i + |pattern|..]
  }

  /** `toLowerCase` restricted to ASCII letters. */
  function LowerChar(c: char): char {
    if 'A' <= c <= 'Z' then (c as int + 32) as char else c
  }

  function LowerAscii(s: string): (r: string)
    ensures |r| == |s|
    ensures forall i :: 0 <= i < |s| ==> r[i] == LowerChar(s[i])
  {
    seq(|s|, i requires 0 <= i < |s| => LowerChar(s[i]))
  }

  lemma LowerAsciiAppend(a: string, b: string)
    ensures LowerAscii(a + b) == LowerAscii(a) + LowerAscii(b)
  {
  }

  /** A single-character pattern occurs exactly where that character does. */
  lemma ContainsChar(s: string, c: char)
    ensures Contains(s, [c]) <==> c in s
  {
    if c in s {
      var i :| 0 <= i < |s| && s[i] == c;
      assert OccursAt(s, [c], i);
    }
    if Contains(s, [c]) {
      var i :| 0 <= i <= |s| && OccursAt(s, [c], i);
      assert s[i] == s[i..i + 1][0];
    }
  }

  /** Putting the same text in front of a string and of its prefix keeps it a prefix. */
  lemma StartsWithAfter(p: string, s: string, q: string)
    requires StartsWith(s, q)
    ensures StartsWith(p + s, p + q)
  {
    assert (p + s)[..|p + q|] == p + s[..|q|];
  }

  /** Every string contains its own prefixes and the empty string. */
  lemma ContainsPrefix(s: string, p: string)
    requires StartsWith(s, p)
    ensures Contains(s, p)
  {
    assert OccursAt(s, p, 0);
  }

  /** `includes` is transitive: a string containing `b` contains whatever `b` contains. */
  lemma ContainsTransitive(a: string, b: string, c: string)
    requires Contains(a, b) && Contains(b, c)
    ensures Contains(a, c)
  {
    var i :| 0 <= i <= |a| && OccursAt(a, b, i);
    var j :| 0 <= j <= |b| && OccursAt(b, c, j);
    forall k | 0 <= k < |c|
      ensures a[i + j + k] == c[k]
    {
      assert c[k] == b[j..j + |c|][k] == b[j + k];
      assert b[j + k] == a[i..i + |b|][j + k];
    }
    assert a[i + j..i + j + |c|] == c;
    assert OccursAt(a, c, i + j);
  }

  /** A string that has no occurrence of `p` before index `i` has none in its first `i` characters. */
  lemma NoOccurrenceInPrefix(s: string, p: string, i: nat)
    requires |p| > 0 && i <= |s|
    requires forall j :: 0 <= j < i ==> !OccursAt(s, p, j)
    ensures !Contains(s[..i], p)
  {
    if Contains(s[..i], p) {
      var j :| 0 <= j <= i && OccursAt(s[..i], p, j);
      assert s[..i][j..j + |p|] == s[j..j + |p|];
      assert OccursAt(s, p, j);
    }
  }

  /** No piece produced by `split` contains the separator. */
  lemma {:induction false} SplitPiecesAvoidSeparator(s: string, sep: string)
    requires |sep| > 0
    ensures forall k :: 0 <= k < |Split(s, sep)| ==> !Contains(Split(s, sep)[k], sep)
    decreases |s|
  {
    match IndexOf(s, sep)
    case None =>
    case Some(i) =>
      NoOccurrenceInPrefix(s, sep, i);
      SplitPiecesAvoidSeparator(s[i + |sep|..], sep);
  }

  /** The first piece of a split is everything before the first separator. */
  lemma SplitHead(s: string, sep: string)
    requires |sep| > 0
    ensures !Contains(Split(s, sep)[0], sep)
    ensures Split(s, sep)[0] == s || StartsWith(s, Split(s, sep)[0] + sep)
  {
    SplitPiecesAvoidSeparator(s, sep);
    match IndexOf(s, sep)
    case None =>
    case Some(i) =>
      assert s[..i + |sep|] == s[..i] + sep;
  }

  /** If the separator occurs at `i` and nowhere before, `split` cuts there. */
  lemma SplitAt(s: string, sep: string, i: nat)
    requires |sep| > 0 && FirstOccurrence(s, sep, i)
    ensures Split(s, sep) == [s[..i]] + Split(s[i + |sep|..], sep)
  {
    var r := IndexOf(s, sep);
    assert OccursAt(s, sep, i);
  }

  /** A string in which the separator's first character never appears splits into itself. */
  lemma SplitWithoutSeparator(s: string, sep: string)
    requires |sep| > 0 && sep[0] !in s
    ensures Split(s, sep) == [s]
  {
    assert !Contains(s, sep);
  }

  /** In `a + sep + b` where `a` lacks the separator's first character, the
      first separator is the one right after `a`. */
  lemma FirstSeparatorAfterPiece(a: string, sep: string, b: string)
    requires |sep| > 0 && sep[0] !in a
    ensures FirstOccurrence(a + sep + b, sep, |a|)
  {
    var s := a + sep + b;
    assert s[|a|..|a| + |sep|] == sep;
    forall j | 0 <= j < |a|
      ensures !OccursAt(s, sep, j)
    {
      assert s[j] == a[j];
    }
  }

  /** `split` undoes `join` when no piece contains the separator's first character. */
  lemma {:induction false} SplitOfJoin(parts: seq<string>, sep: string)
    requires |sep| > 0 && |parts| >= 1
    requires forall k :: 0 <= k < |parts| ==> sep[0] !in parts[k]
    ensures Split(Join(parts, sep), sep) == parts
    decreases |parts|
  {
    if |parts| == 1 {
      SplitWithoutSeparator(parts[0], sep);
    } else {
      var tail := Join(parts[1..], sep);
      var s := parts[0] + sep + tail;
      var n := |parts[0]|;
      assert Join(parts, sep) == s;
      FirstSeparatorAfterPiece(parts[0], sep, tail);
      SplitAt(s, sep, n);
      assert s[..n] == parts[0];
      assert s[n + |sep|..] == tail;
      SplitOfJoin(parts[1..], sep);
      assert parts == [parts[0]] + parts[1..];
    }
  }
}

=== FILE: verify_page.dfy ===
/** The public verification page (app/verify/page.tsx): the chosen file, its
    SHA-256 digest rendered as lowercase hex, the `0x`-prefixed hash sent to
    `POST /verify-document`, the verdict drawn from the answer, and the
    abbreviated transaction hash shown for each record.

    SHA-256 (`crypto.subtle.digest`) and the backend are parameters; every
    handler runs to completion before the next event. */
module VerifyPage {
  import opened Base
  import opened Text
  import opened HexCodec

  /** What `crypto.subtle.digest('SHA-256', …)` returns: 32 bytes. */
  type Digest = d: seq<byte> | |d| == 32 witness seq(32, _ => 0)

  /** `calculateFileHash` (app/verify/page.tsx:37-43): the file's digest, or
      `None` when reading the file or hashing it rejects. */
  type Hasher = seq<byte> -> Option<Digest>

  /** One signature record of the verification answer (the fields this page reads). */
  datatype SignatureInfo = SignatureInfo(id: string, documentHash: string, fileName: string,
                                         status: string, blockchainTxHash: Option<string>)

  /** The page's five pieces of state. */
  datatype VerifyState = VerifyState(file: Option<File>, loading: bool,
                                     result: Option<seq<SignatureInfo>>,
                                     error: Option<string>, fileHash: Option<string>)

  /** How `POST /verify-document` ended: an answer whose `data` may be missing,
      or a rejection whose `response.data.error` may be missing. */
  datatype Reply = Answered(data: Option<seq<SignatureInfo>>) | Rejected(serverError: Option<string>)

  const NOT_FOUND := "Document not found in our system"
  const VERIFY_FAILED := "Failed to verify document"
  const HASH_PREFIX := "0x"
  const ELLIPSIS := "..."

  function Initial(): VerifyState {
    VerifyState(None, false, None, None, None)
  }

  /** No verdict and no digest is on display. */
  predicate Cleared(st: VerifyState) {
    st.result.None? && st.error.None? && st.fileHash.None?
  }

  // ---------------------------------------------------------------- the hash

  /** The hash the page submits: `0x` and the hex rendering of the digest
      (app/verify/page.tsx:80). */
  function DocumentHash(digest: seq<byte>): (h: string)
    ensures |h| == 2 + 2 * |digest| && StartsWith(h, HASH_PREFIX)
    ensures forall k :: 2 <= k < |h| ==> IsLowerHexChar(h[k])
  {
    HexIsLowercaseDigits(digest);
    HASH_PREFIX + Hex(digest)
  }

  /** Reads a `0x`-prefixed hex string back into bytes. */
  function ParseDocumentHash(h: string): (r: Option<seq<byte>>)
    ensures r.Some? ==> StartsWith(h, HASH_PREFIX) && 2 * |r.value| + 2 == |h|
  {
    if StartsWith(h, HASH_PREFIX) then Unhex(h[2..]) else None
  }

  /** The submitted hash determines the digest: parsing it gives the digest back,
      and for SHA-256 it is always 66 characters long. */
  lemma DocumentHashRoundTrip(digest: seq<byte>)
    ensures ParseDocumentHash(DocumentHash(digest)) == Some(digest)
    ensures |digest| == 32 ==> |DocumentHash(digest)| == 66
  {
    assert DocumentHash(digest)[2..] == Hex(digest);
    UnhexOfHex(digest);
  }

  /** Two files are submitted under the same hash exactly when their digests agree. */
  lemma DocumentHashInjective(a: seq<byte>, b: seq<byte>)
    ensures DocumentHash(a) == DocumentHash(b) <==> a == b
  {
    if DocumentHash(a) == DocumentHash(b) {
      DocumentHashRoundTrip(a);
      DocumentHashRoundTrip(b);
    }
  }

  // ---------------------------------------------------------------- handlers

  /** `handleFileSelect` and `handleDrop` (app/verify/page.tsx:45-64): the first
      file of the list replaces the current one and every verdict of the old
      file is cleared; an empty list changes nothing. */
  function ChooseFile(st: VerifyState, files: seq<File>): (r: VerifyState)
    ensures |files| == 0 ==> r == st
    ensures |files| > 0 ==> r.file == Some(files[0]) && Cleared(r) && r.loading == st.loading
  {
    if |files| == 0 then st
    else st.(file := Some(files[0]), result := None, error := None, fileHash := None)
  }

  /** "Choose Different File" (app/verify/page.tsx:138-144). */
  function ClearFile(st: VerifyState): (r: VerifyState)
    ensures r.file.None? && Cleared(r) && r.loading == st.loading
  {
    st.(file := None, result := None, error := None, fileHash := None)
  }

  /** The part of `handleVerify` before its first `await` (app/verify/page.tsx:67-71):
      loading starts and the old verdict goes; the digest on display stays. */
  function BeginVerify(st: VerifyState): (r: VerifyState)
    ensures r.file == st.file && r.fileHash == st.fileHash
    ensures r.loading && r.result.None? && r.error.None?
  {
    st.(loading := true, error := None, result := None)
  }

  /** The part of `handleVerify` after its `await`s return (app/verify/page.tsx:72-93),
      as written: the digest and verdict of `verified`, the file read when the
      call began, are written whatever file is on display by then. When hashing
      rejects, the `catch` shows the generic failure, since such an error carries
      no server answer, and the digest on display stays. */
  function SettleAsWritten(st: VerifyState, verified: File, sha: Hasher,
                           backend: string -> Reply): (r: VerifyState)
    ensures r.file == st.file && !r.loading
    ensures sha(verified.content).Some? ==> r.fileHash == Some(Hex(sha(verified.content).value))
    ensures sha(verified.content).None? ==>
      r.fileHash == st.fileHash && r.result.None? && r.error == Some(VERIFY_FAILED)
    ensures !(r.result.Some? && r.error.Some?)
    ensures r.result.Some? ==> |r.result.value| > 0
  {
    match sha(verified.content)
    case None => st.(loading := false, result := None, error := Some(VERIFY_FAILED))
    case Some(digest) =>
      var hash := Hex(digest);
      var settled := st.(loading := false, fileHash := Some(hash));
      match backend(HASH_PREFIX + hash)
      case Answered(data) =>
        if data.Some? && |data.value| > 0 then settled.(result := data, error := None)
        else settled.(result := None, error := Some(NOT_FOUND))
      case Rejected(e) =>
        settled.(result := None, error := Some(if Truthy(e) then e.value else VERIFY_FAILED))
  }

  /** The settling step with the guard the page evidently intends: an answer
      for a file that is no longer on display only ends loading. Whatever it
      shows belongs to the displayed file. */
  function Settle(st: VerifyState, verified: File, sha: Hasher, backend: string -> Reply): (r: VerifyState)
    ensures r.file == st.file && !r.loading
    ensures st.file == Some(verified) ==> r == SettleAsWritten(st, verified, sha, backend)
    ensures r.fileHash != st.fileHash || r.result != st.result || r.error != st.error ==>
      r.file == Some(verified)
    ensures r.fileHash != st.fileHash ==>
      sha(verified.content).Some? && r.fileHash == Some(Hex(sha(verified.content).value))
  {
    if st.file == Some(verified) then SettleAsWritten(st, verified, sha, backend) else st.(loading := false)
  }

  /** The state after `handleVerify` settles, and the hash it submitted. */
  datatype VerifyRun = VerifyRun(state: VerifyState, submitted: Option<string>)

  /** `handleVerify` (app/verify/page.tsx:66-94) when nothing happens while it waits. */
  function HandleVerify(st: VerifyState, sha: Hasher, backend: string -> Reply): (run: VerifyRun)
    // without a file nothing happens
    ensures st.file.None? ==> run == VerifyRun(st, None)
    // a hash is submitted exactly when there is a file and hashing it succeeds
    ensures run.submitted.Some? <==> st.file.Some? && sha(st.file.value.content).Some?
    ensures st.file.Some? ==> run.state.file == st.file && !run.state.loading
    // when hashing rejects, the generic failure shows beside the old digest
    ensures st.file.Some? && sha(st.file.value.content).None? ==>
      run.state.fileHash == st.fileHash && run.state.result.None? && run.state.error == Some(VERIFY_FAILED)
    ensures st.file.Some? && sha(st.file.value.content).Some? ==>
      var digest := sha(st.file.value.content).value;
      run.submitted == Some(DocumentHash(digest)) && run.state.fileHash == Some(Hex(digest))
    // result and error are never both set; a result is never empty
    ensures st.file.Some? ==> !(run.state.result.Some? && run.state.error.Some?)
    ensures run.submitted.Some? ==>
      (run.state.result.Some? <==>
        backend(run.submitted.value).Answered?
        && backend(run.submitted.value).data.Some? && |backend(run.submitted.value).data.value| > 0)
    ensures run.submitted.Some? && run.state.result.Some? ==> run.state.result == backend(run.submitted.value).data
    ensures run.submitted.Some? && backend(run.submitted.value).Answered? && run.state.result.None? ==>
      run.state.error == Some(NOT_FOUND)
    ensures run.submitted.Some? && backend(run.submitted.value).Rejected? ==>
      var e := backend(run.submitted.value).serverError;
      run.state.error == Some(if Truthy(e) then e.value else VERIFY_FAILED)
  {
    match st.file
    case None => VerifyRun(st, None)
    case Some(f) =>
      var submitted := if sha(f.content).Some? then Some(DocumentHash(sha(f.content).value)) else None;
      VerifyRun(Settle(BeginVerify(st), f, sha, backend), submitted)
  }

  // ---------------------------------------------------------------- the page over time

  /** What can happen on the page: the user selects, drops or clears a file or
      presses "Verify", or the outstanding verification's `await`s return. The
      drop zone, the file input and "Choose Different File" stay enabled while
      a verification is outstanding; "Verify" is disabled then
      (app/verify/page.tsx:116-168). */
  datatype Event = Select(files: seq<File>) | Drop(files: seq<File>) | Clear | Verify | Answer

  /** The page state and the file the outstanding verification read, if any. */
  datatype Page = Page(st: VerifyState, inFlight: Option<File>)

  /** Which settling step a run uses: the code as written, or the guarded one. */
  datatype Settling = AsWritten | Guarded

  function Step(p: Page, e: Event, mode: Settling, sha: Hasher, backend: string -> Reply): Page {
    match e
    case Select(files) => p.(st := ChooseFile(p.st, files))
    case Drop(files) => p.(st := ChooseFile(p.st, files))
    case Clear => p.(st := ClearFile(p.st))
    case Verify =>
      if p.st.file.None? || p.st.loading then p else Page(BeginVerify(p.st), p.st.file)
    case Answer =>
      match p.inFlight
      case None => p
      case Some(f) =>
        Page(if mode == AsWritten then SettleAsWritten(p.st, f, sha, backend) else Settle(p.st, f, sha, backend), None)
  }

  function Run(p: Page, events: seq<Event>, mode: Settling, sha: Hasher, backend: string -> Reply): Page
    decreases |events|
  {
    if |events| == 0 then p else Run(Step(p, events[0], mode, sha, backend), events[1..], mode, sha, backend)
  }

  /** What the page shows belongs to the file on display: a digest is that
      file's digest, a verdict exists only beside a file, result and error
      exclude each other, a shown result is never empty, and the spinner is on
      exactly while a verification is outstanding, with no verdict shown. */
  predicate Coherent(p: Page, sha: Hasher) {
    var st := p.st;
    (st.fileHash.Some? ==>
      st.file.Some? && sha(st.file.value.content).Some?
      && st.fileHash.value == Hex(sha(st.file.value.content).value))
    && (st.result.Some? || st.error.Some? ==> st.file.Some?)
    && !(st.result.Some? && st.error.Some?)
    && (st.result.Some? ==> |st.result.value| > 0)
    && (st.loading <==> p.inFlight.Some?)
    && (p.inFlight.Some? ==> st.result.None? && st.error.None?)
  }

  /** The page as first rendered is coherent. */
  lemma InitialIsCoherent(sha: Hasher)
    ensures Coherent(Page(Initial(), None), sha)
  {
  }

  lemma StepKeepsCoherent(p: Page, e: Event, sha: Hasher, backend: string -> Reply)
    requires Coherent(p, sha)
    ensures Coherent(Step(p, e, Guarded, sha, backend), sha)
  {
  }

  /** With the guarded settling step, every interleaving of selections, drops,
      clears, verifications and answers leaves the page coherent. */
  lemma {:induction false} RunKeepsCoherent(p: Page, events: seq<Event>,
                                           sha: Hasher, backend: string -> Reply)
    requires Coherent(p, sha)
    ensures Coherent(Run(p, events, Guarded, sha, backend), sha)
    decreases |events|
  {
    if |events| > 0 {
      StepKeepsCoherent(p, events[0], sha, backend);
      RunKeepsCoherent(Step(p, events[0], Guarded, sha, backend), events[1..], sha, backend);
    }
  }

  /** A run of four events is the four steps in order. */
  lemma RunOfFour(p: Page, e0: Event, e1: Event, e2: Event, e3: Event, mode: Settling,
                  sha: Hasher, backend: string -> Reply)
    ensures Run(p, [e0, e1, e2, e3], mode, sha, backend) ==
      Step(Step(Step(Step(p, e0, mode, sha, backend), e1, mode, sha, backend), e2, mode, sha, backend), e3, mode, sha, backend)
  {
    var q1 := Step(p, e0, mode, sha, backend);
    var q2 := Step(q1, e1, mode, sha, backend);
    var q3 := Step(q2, e2, mode, sha, backend);
    assert [e0, e1, e2, e3][1..] == [e1, e2, e3];
    assert [e1, e2, e3][1..] == [e2, e3];
    assert [e2, e3][1..] == [e3];
    assert [e3][1..] == [];
    assert Run(q3, [e3], mode, sha, backend) == Step(q3, e3, mode, sha, backend);
    assert Run(q2, [e2, e3], mode, sha, backend) == Run(q3, [e3], mode, sha, backend);
    assert Run(q1, [e1, e2, e3], mode, sha, backend) == Run(q2, [e2, e3], mode, sha, backend);
  }

  /** As written, a file dropped while another one is being verified ends up
      beside the first file's digest and verdict. */
  lemma StaleVerdictAsWritten(a: File, b: File, sha: Hasher, backend: string -> Reply)
    requires sha(a.content).Some? && sha(a.content) != sha(b.content)
    ensures var p := Run(Page(Initial(), None), [Select([a]), Verify, Drop([b]), Answer], AsWritten, sha, backend);
      p.st.file == Some(b) && p.st.fileHash == Some(Hex(sha(a.content).value))
      && (p.st.result.Some? || p.st.error.Some?)
      && !Coherent(p, sha)
  {
    RunOfFour(Page(Initial(), None), Select([a]), Verify, Drop([b]), Answer, AsWritten, sha, backend);
    var p1 := Page(Initial().(file := Some(a)), None);
    var p2 := Page(BeginVerify(p1.st), Some(a));
    var p3 := Page(ChooseFile(p2.st, [b]), Some(a));
    var p4 := Page(SettleAsWritten(p3.st, a, sha, backend), None);
    assert Step(Page(Initial(), None), Select([a]), AsWritten, sha, backend) == p1;
    assert Step(p1, Verify, AsWritten, sha, backend) == p2;
    assert Step(p2, Drop([b]), AsWritten, sha, backend) == p3;
    assert Step(p3, Answer, AsWritten, sha, backend) == p4;
    assert p4.st.file == Some(b);
    if sha(b.content).Some? && Hex(sha(a.content).value) == Hex(sha(b.content).value) {
      HexInjective(sha(a.content).value, sha(b.content).value);
    }
  }

  /** With the guard the same interleaving shows the dropped file with no digest
      and no verdict, ready to be verified. */
  lemma GuardedDropsStaleAnswer(a: File, b: File, sha: Hasher, backend: string -> Reply)
    requires a != b
    ensures Run(Page(Initial(), None), [Select([a]), Verify, Drop([b]), Answer], Guarded, sha, backend)
      == Page(Initial().(file := Some(b)), None)
  {
    RunOfFour(Page(Initial(), None), Select([a]), Verify, Drop([b]), Answer, Guarded, sha, backend);
  }

  /** Choosing a file forgets everything about the previous one: whatever was on
      display, the next verification depends only on the new file. */
  lemma ChoosingForgetsHistory(a: VerifyState, b: VerifyState, files: seq<File>,
                               sha: Hasher, backend: string -> Reply)
    requires |files| > 0 && a.loading == b.loading
    ensures ChooseFile(a, files) == ChooseFile(b, files)
    ensures HandleVerify(ChooseFile(a, files), sha, backend) == HandleVerify(ChooseFile(b, files), sha, backend)
  {
  }

  // ---------------------------------------------------------------- transaction hash

  function Min(a: int, b: int): int {
    if a < b then a else b
  }

  /** `s.slice(0, n)` for `n >= 0`. */
  function SliceHead(s: string, n: nat): string {
    s[..Min(n, |s|)]
  }

  /** `s.slice(-n)` for `n > 0`: the last `n` characters, or all of a shorter string. */
  function SliceTail(s: string, n: nat): string {
    s[|s| - Min(n, |s|)..]
  }

  /** The displayed transaction hash (app/verify/page.tsx:274). */
  function ShortTxHash(tx: string): (r: string)
    ensures |r| == Min(|tx|, 10) + 3 + Min(|tx|, 8)
    ensures StartsWith(tx, r[..Min(|tx|, 10)]) && EndsWith(tx, r[|r| - Min(|tx|, 8)..])
    ensures r[Min(|tx|, 10)..Min(|tx|, 10) + 3] == ELLIPSIS
  {
    var r := SliceHead(tx, 10) + ELLIPSIS + SliceTail(tx, 8);
    assert r[Min(|tx|, 10)..Min(|tx|, 10) + 3] == ELLIPSIS;
    r
  }

  /** For a hash of at least 18 characters the abbreviation keeps the first 10
      and the last 8, which do not overlap: the hash is the shown head, a hidden
      middle, and the shown tail. */
  lemma ShortTxHashKeepsEnds(tx: string)
    requires |tx| >= 18
    ensures |ShortTxHash(tx)| == 21 && ShortTxHash(tx)[10..13] == ELLIPSIS
    ensures tx == ShortTxHash(tx)[..10] + tx[10..|tx| - 8] + ShortTxHash(tx)[13..]
  {
    var r := ShortTxHash(tx);
    assert r[..10] == tx[..10];
    assert r[13..] == tx[|tx| - 8..];
  }
}
